=== FILE: README.md ===
# togpx in Dafny

A model of `togpx`, which converts GeoJSON to GPX 1.1. It covers the
whole conversion function in `index.js`:

- the default extractors for a feature's title, description and
  per-coordinate times;
- the normalisation of the input (a FeatureCollection, a single Feature or
  a bare geometry) into a list of features;
- the `mapFeature` dispatch: points become waypoints, lines and polygons
  become tracks, geometry collections recurse, and unknown types are
  skipped;
- the root `gpx` literal, with its optional creator and metadata;
- `toGpxBuilderObject`, which rewrites the `@`-prefixed keys of the tree
  into a `$` attribute object for the GPX writer.

JavaScript values are modelled as a `Value` datatype. Objects are ordered
member lists in insertion order, which is the order `for ... in` visits
string keys in. Property assignment follows JavaScript: an existing key
keeps its place and a new key goes last.

Modules:

- `Json`: values, truthiness, `typeof === "object"`, property lookup and
  `for ... in` enumeration.
- `GeoJson`: geometries, features, the three root shapes, and the
  normalisation to features.
- `Extractors`: `get_feature_title`, `get_feature_description` and
  `get_feature_coord_times`.
- `Gpx`: the waypoint, track-point, segment, track and document records,
  and the `@`-keyed object tree `togpx` builds from them.
- `Mapper`: the merged options, `mapFeature`, and assembly of the document.
- `MappingLemmas`: what each geometry type contributes, and the
  `forEach` loop.
- `Builder`: `toGpxBuilderObject`. It is written as the source's
  assignment loop (`Reshape`) and compared with a declarative reference
  (`Shape`): plain members keep their places, and the attributes, with the
  `@` removed, sit in one `$` object where the first attribute was.
- `Togpx`: the whole pipeline. It states the exact builder object for
  every waypoint, track point, segment, track and the document root.

Two behaviours of the code worth noting:

- When `options.metadata` is falsy, the tree keeps the literal's
  `"metadata": null`. `toGpxBuilderObject` turns that null into `{}`. So
  the builder object always has a `metadata` member, which is empty in
  this case, rather than leaving it out (index.js:112, 118-121, 91-95).
- A track point gets a `time` when the time entry is truthy. So `0` and
  `""` are dropped as well as `null` and `false` (index.js:174, 207).

## Model

| member | source | states |
|---|---|---|
| Extractors.Title | index.js:27-45 | The title is either the empty string or a truthy value, so a falsy `name` never becomes a title. |
| Extractors.TitleIsFirstCandidate | index.js:32-44 | The title is the first truthy value among nested `tags` titles, then `name`, `ref` and `id`, in that order; with no candidate it is "". |
| Extractors.ListingIsJoin | index.js:53-59 | Accumulating `key=value\n` per non-object member and then cutting the last character gives the newline join of the entries, with no trailing newline. An empty listing gives "". |
| Extractors.Description | index.js:46-60 | The description is the newline join of `key=value` over the members of the innermost object-typed `tags` (or of the properties), skipping object-typed values. A falsy properties value gives "". |
| Extractors.DefaultCoordTimes | index.js:61-64 | The result is truthy iff `times` or `coordTimes` is truthy. It is `times` when that is truthy, else `coordTimes`, and otherwise null. |
| Extractors.KeyCoordTimes | index.js:19-25 | With a property-name option, the times are that property of the properties object, or null when it is missing. |
| GeoJson.Features | index.js:123-129 | A FeatureCollection yields its features, a Feature yields itself, and a bare geometry yields one feature with `{}` properties. Valid input gives valid features. |
| GeoJson.FlattenIndex | index.js:195-214 | Flattening polygons into rings puts ring `r` of polygon `p` after all rings of earlier polygons. |
| Mapper.FeatureLink | index.js:65-68 | A link is added exactly when a link function is configured, and its href is that function applied to the feature's properties. |
| Mapper.Rings | index.js:153-196 | A track is drawn from the one line of a LineString, the lines of a MultiLineString, the rings of a Polygon, and the rings of a MultiPolygon's polygons laid end to end. These are valid (every position has at least two entries) whenever the geometry is. |
| Mapper.MapFeature | index.js:131-229 | A Point adds one waypoint and no track, a MultiPoint one waypoint per coordinate and no track, a line or polygon geometry one track and no waypoint, and an unknown type nothing. The contents are stated by `MappingLemmas.WaypointFeature`, `MappingLemmas.TrackFeature`, `MappingLemmas.CollectionFlattens` and `MappingLemmas.UnsupportedSkipped`. |
| Mapper.MapFeatures | index.js:131-230 | The `wpt` and `trk` lists of all features are the per-feature lists laid end to end, in feature order. |
| Mapper.Concat | index.js:131-230 | The combined output holds as many waypoints and tracks as the per-feature outputs together. |
| Mapper.Convert | index.js:107-121 | The document has a creator iff the creator option is truthy, and it equals the option. Its metadata is the option when truthy, and null otherwise. |
| Mapper.ConcatIsFlatten | index.js:131-230 | The `wpt` and `trk` lists are the per-feature lists laid end to end, in feature order. |
| MappingLemmas.MapFeaturesAppend | index.js:131 | Features are processed in order: mapping `a + b` gives the output of `a` followed by that of `b`. |
| MappingLemmas.UnsupportedSkipped | index.js:227-228 | An unknown geometry type adds nothing, and the features after it are still mapped. |
| MappingLemmas.MapAll | index.js:131-230 | The loop pushing each feature's waypoints and tracks computes the same lists as the reference mapping of all features. |
| MappingLemmas.WaypointFeature | index.js:134-151 | A Point adds one waypoint and a MultiPoint one per coordinate, in order, and no track. Each has `lat` = c[1] and `lon` = c[0], has `ele` = c[2] iff c[2] exists, and carries the feature's title, description and link. |
| MappingLemmas.TrackFeature | index.js:153-217 | A line or polygon geometry adds exactly one track and no waypoint. The track has one segment per line or ring and one point per coordinate, in order, so an empty line or ring gives an empty segment. `ele` is present iff c[2] exists. `time` is present iff the times value and its entry at the point's index within its segment are truthy, and then it is that entry. |
| MappingLemmas.MultiPolygonSegment | index.js:184-217 | In a MultiPolygon's track, ring `r` of polygon `p` is the segment after all rings of the earlier polygons. It has one point per position of that ring, with `lat` = c[1], `lon` = c[0], `ele` from c[2], and the time at the point's index within the ring. |
| MappingLemmas.FeatureCounts | index.js:131-229 | A feature adds as many waypoints as its (nested) points and as many tracks as its (nested) line and polygon geometries. |
| MappingLemmas.CollectionFlattens | index.js:218-226 | A geometry collection's output is the output of its children, in child order, each child carrying the parent's properties. |
| Builder.Assign | index.js:76-98 | After `obj[k] = v`, `k` reads `v` and every other key reads as before. An existing key keeps its position and a new key is appended. |
| Builder.Step | index.js:76-99 | After every iteration of the loop, the `$` slot is absent, an object or a falsy value (which line 78 replaces by `{}`), so storing an attribute into it is defined. |
| Builder.Convert | index.js:81-98 | A property value is copied with objects kept objects and null turned into `{}`. Arrays keep their length, and `Builder.ConvertArray` gives their elements. Other values are unchanged. |
| Builder.ConvertArray | index.js:91-93 | An array is copied element by element and in order, each element through `toGpxBuilderObject`. |
| Builder.Build | index.js:71-104 | `toGpxBuilderObject` always returns an object, and an empty one for null, booleans and numbers. |
| Builder.Reshape | index.js:73-102 | The `$` slot stays absent, an object or falsy after any prefix of the loop, so every attribute assignment is defined. The result is stated by `Builder.ReshapeIsShape`, `Builder.BuildKeepsPlain` and `Builder.BuildMovesAttribute`. |
| Builder.ReshapeIsShape | index.js:71-104 | For distinct keys none of which is `$`, the assignment loop produces exactly the reference shape: plain members in place, and the attributes, `@` removed and in order, in one `$` object at the first attribute's position. |
| Builder.BagIffAttribute | index.js:76-80 | The reference shape has a `$` member iff the input has an `@` key, at the first attribute's position. |
| Builder.PlainMembers | index.js:90-99 | `Plain(ms)` holds exactly the input members without `@`, in order: each of them is in it and each of its members is one of them. |
| Builder.AttributesMembers | index.js:76-89 | The members of the `$` object, with `@` restored, are exactly the input members with `@`. |
| Builder.BuildKeepsPlain | index.js:90-99 | Every key without `@` keeps its converted value under the same name in the builder object. |
| Builder.BuildMovesAttribute | index.js:76-89 | Every `@k` key's converted value is found under `k` in the `$` object. |
| Builder.BuildBagIff | index.js:76-80 | The builder object has a `$` key iff the input object has an `@` key. |
| Builder.BuildLayout | index.js:71-104 | For an object whose attributes all come before or after its plain members, the result is the `$` object holding every attribute in order, followed by the converted plain members. |
| Gpx.DocumentTree | index.js:107-117 | The root tree has distinct keys, none of them `$` or empty. Exactly the four fixed attributes and `@creator` start with `@`. |
| Gpx.WaypointTree | index.js:139-148 | A waypoint tree has distinct keys, none of them `$` or empty, and exactly its first two keys (`@lat`, `@lon`) start with `@`. |
| Gpx.TrackTree | index.js:158-163 | A track tree has distinct keys, none of them `$` or empty, and none starting with `@`. |
| Gpx.TrackPointTree | index.js:167-176 | A track point tree has distinct keys, none of them `$` or empty, and exactly its first two keys (`@lat`, `@lon`) start with `@`. |
| Togpx.BuiltLink | index.js:65-68 | `{ "@href": h }` becomes `{ $: { href: h } }`. |
| Togpx.BuiltWaypoint | index.js:139-148 | A waypoint tree becomes `{ $: { lat, lon }, name, desc, ele?, link? }`, in that order. |
| Togpx.BuiltTrackPoint | index.js:167-177 | A track point tree becomes `{ $: { lat, lon }, ele?, time? }`, for line and polygon points alike (index.js:200-211 builds the same tree). |
| Togpx.BuiltSegment | index.js:164-180 | A segment becomes `{ trkpt: [...] }`, with one builder point per point, in order. |
| Togpx.BuiltTrack | index.js:158-181 | A track becomes `{ name, desc, link?, trkseg: [...] }`, with one builder segment per segment. |
| Togpx.BuiltDocument | index.js:107-117 | The root becomes `{ $: { xmlns, xmlns:xsi, xsi:schemaLocation, version, creator? }, metadata, wpt, trk }`. The creator joins the bag although it was assigned after the plain members. |
| Togpx.ToGpx | index.js:231 | The object handed to the GPX writer has exactly four members: `$`, `metadata`, `wpt` and `trk`, in that order. |
| Togpx.ToGpxCreator | index.js:107-117 | The `$` object starts with the four fixed attributes in the literal's order. It has `creator` iff the creator option is truthy, and then `creator` is the converted option. |
| Togpx.ToGpxMetadata | index.js:112-121 | `metadata` is the converted option when that is truthy, and `{}` otherwise. |
| Togpx.ToGpxFeatures | index.js:131-231 | The document's waypoints and tracks are those `Mapper.MapFeatures` gives for the normalised features, and `wpt` and `trk` hold their builder objects, one for one and in order. |

## Left out

- The GPX text: `new GPX(...).toString()` belongs to the `gpx-parser-builder` package, which is not part of this model (index.js:232). The model stops at the object handed to it.
- `console.log` calls (index.js:75, 228) are left out. They have no effect on the result, except that building the message at index.js:75 can throw (see below).
- The merge of caller options over the defaults (index.js:4-17) is not modelled as code. `Options` is the merged record, `DefaultOptions` gives the defaults, and an option left undefined is `None`. The `typeof options.featureCoordTimes === 'string'` rewrite (index.js:19-25) becomes the `TimesKey` case.
- Caller callbacks (`featureTitle`, `featureDescription`, `featureLink`, `featureCoordTimes`) are pure functions over values. Callbacks with side effects are not modelled. The source throws when a caller sets `featureTitle`, `featureDescription` or `featureCoordTimes` to a value that is neither a function nor (for the times) a string, for example `undefined`. The `Options` datatype cannot express such options.
- Strings are sequences of Unicode scalar values. JavaScript strings are UTF-16, so `for ... in` over a string (index.js:54) and `times[i]` on a string (index.js:174, 207) index code units. The model indexes characters, and the two differ for characters outside the Basic Multilingual Plane.
- Number-to-string conversion in the default description is a parameter (`numberText`). The host's number formatting is not modelled.
- Inherited properties and the `hasOwnProperty` test (index.js:74): the tree holds only own properties. Integer-like keys, which `for ... in` would visit first, are treated like other keys.
- Input the source would throw on is excluded:
  - a feature without a geometry, which the `Feature` datatype cannot express;
  - a property-name times option with null properties on a line or polygon feature, which a precondition excludes;
  - an object in the tree with an own `hasOwnProperty` key (in a feature's properties or `tags`, say), on which the call `gpx.hasOwnProperty(prop)` at index.js:74 throws a TypeError. The model does not check for it;
  - a value whose string conversion throws, that is, an object whose `toString` is not callable and whose `valueOf` returns an object. The concatenation in the `console.log` message at index.js:75 throws on it. The model does not check for it.
- A position with fewer than two entries is excluded by the validity predicate. The source does not throw on it: `c[1]` or `c[0]` reads `undefined`, and that is written as `lat` or `lon` (index.js:140-141, 168-169, 201-202).
- Feature properties are limited to an object or null (section 3.2 of RFC 7946) by the validity predicate, although the extractors would also accept other values. The properties object's keys are distinct, as in any JavaScript object. Nested objects (`tags`, metadata, creator, callback results) are assumed to have distinct keys as well but are not required to. For a duplicate key, `Get` and `Find` read the first binding, while an object built by `JSON.parse` keeps the last one.
- Ring closure and other RFC 7946 constraints the converter does not check are not enforced.
- Builder.Convert, Builder.Build: require `Safe`, which excludes every object with a plain `$` key bound to a truthy non-object. The source fails on such an object only when an `@` key follows the `$` key, because only then does the loop assign into the primitive or array (index.js:83-88). `{"$": "x"}` alone converts to itself in the source, but the model does not cover it. The model leaves out strict-mode failure and properties stored on arrays.
- Builder.ReshapeIsShape: requires distinct keys and no plain `$` key. Both hold for every record object the converter itself builds (root, waypoints, tracks, segments, points, links; see the `Gpx` tree contracts). Caller values (metadata, creator, callback results, `name` or `tags` taken from properties) may hold a plain `$` key; for them only `Builder.Build` and `Builder.Reshape` apply, not `Builder.ReshapeIsShape`.
- Builder.BuildKeepsPlain: requires distinct keys and no plain `$` key, as above.
- Builder.BuildMovesAttribute: requires distinct keys and no plain `$` key, as above.
- Builder.BuildBagIff: requires distinct keys and no plain `$` key, as above.
- Features keep only their properties and geometry. Callbacks (a custom `featureCoordTimes` receives the whole feature) cannot observe a feature's `type`, `id`, `bbox` or foreign members, nor tell missing properties from null ones. In the source, the features of a FeatureCollection and a single Feature root (index.js:125-127) keep all their members. The wrapper around a bare geometry (index.js:129) has `type: "Feature"` and `properties: {}` but no `id`, `bbox` or foreign members. The pseudo-features for a geometry collection's children (index.js:220-223) have only `properties` and `geometry`.
- Togpx.ToGpx: requires the document tree to be `Safe`, that is, no option or callback value holds an object with a `$` key bound to a truthy non-object.

=== FILE: builder.dfy ===
/**
  `toGpxBuilderObject`: the recursive rewrite of the `gpx` tree into the
  shape the XML builder library expects, where every `@`-prefixed key
  moves, without its `@`, into an attribute bag stored under `$`.

  The rewrite is modelled as the loop it is (a fold of JavaScript property
  assignments over the keys in order) and compared with a declarative
  description of its result, `Shape`.
 */
module Builder {
  import opened Json

  predicate IsAttribute(key: string) {
    |key| > 0 && key[0] == '@'
  }

  /** `obj[k] = v`: an existing key keeps its place, a new key goes last. */
  function Assign(obj: seq<Member>, k: string, v: Value): (r: seq<Member>)
    ensures Get(r, k) == Some(v)
    ensures forall k' :: k' != k ==> Get(r, k') == Get(obj, k')
    ensures Find(obj, k).None? ==> r == obj + [Member(k, v)]
    ensures Find(obj, k).Some? ==> r == obj[Find(obj, k).value := Member(k, v)]
  {
    match Find(obj, k)
    case None =>
      var r := obj + [Member(k, v)];
      FindSnoc(obj, Member(k, v), k);
      forall k' | k' != k
        ensures Get(r, k') == Get(obj, k')
      {
        FindSnoc(obj, Member(k, v), k');
      }
      r
    case Some(i) =>
      var r := obj[i := Member(k, v)];
      FindFirst(r, k, i);
      forall k' | k' != k
        ensures Get(r, k') == Get(obj, k')
      {
        FindSamePositions(r, obj, k');
      }
      r
  }

  /* ---------------------------------------------------------------------
     The loop
     --------------------------------------------------------------------- */

  /**
    The `$` slot is empty, an object, or falsy; only then can the loop's
    `gpxBuilderObject['$'][key] = ...` store into an object.
   */
  predicate BagReady(acc: seq<Member>) {
    var b := Get(acc, "$");
    b.None? || b.value.Obj? || !Truthy(b.value)
  }

  /**
    A member the loop can handle: a plain `$` key would otherwise leave a
    truthy non-object in the `$` slot, and storing into it would throw.
   */
  predicate DollarSafe(m: Member) {
    m.key == "$" ==> m.value.Obj? || !Truthy(m.value)
  }

  /** One iteration of the loop, on an already converted value. */
  function Step(acc: seq<Member>, m: Member): (r: seq<Member>)
    requires BagReady(acc) && DollarSafe(m)
    ensures BagReady(r)
  {
    if IsAttribute(m.key) then
      var withBag := if Present(Get(acc, "$")) then acc else Assign(acc, "$", Obj([]));
      var bag := Get(withBag, "$").value;
      Assign(withBag, "$", Obj(Assign(bag.members, m.key[1..], m.value)))
    else
      Assign(acc, m.key, m.value)
  }

  /** The loop over `ms`, starting from `acc`; the `$` slot stays usable throughout. */
  function Reshape(acc: seq<Member>, ms: seq<Member>): (r: seq<Member>)
    requires BagReady(acc) && forall i :: 0 <= i < |ms| ==> DollarSafe(ms[i])
    ensures BagReady(r)
    decreases |ms|
  {
    if ms == [] then acc else Reshape(Step(acc, ms[0]), ms[1..])
  }

  /** Every object in `v` holds only members the loop can handle. */
  predicate Safe(v: Value) {
    match v
    case Arr(a) => forall i :: 0 <= i < |a| ==> Safe(a[i])
    case Obj(ms) => forall i :: 0 <= i < |ms| ==> DollarSafe(ms[i]) && Safe(ms[i].value)
    case _ => true
  }

  /**
    How one property value is copied: arrays element by element through
    `toGpxBuilderObject`, objects and null through `toGpxBuilderObject`,
    anything else unchanged.
   */
  function Convert(v: Value): (r: Value)
    requires Safe(v)
    ensures v.Obj? ==> r.Obj?
    ensures v.Null? ==> r == Obj([])
    ensures v.Arr? ==> r.Arr? && |r.elems| == |v.elems|
    ensures !IsObjectType(v) ==> r == v
    decreases v, 2
  {
    match v
    case Arr(a) => Arr(seq(|a|, i requires 0 <= i < |a| => Build(a[i])))
    case Obj(_) => Build(v)
    case Null => Build(v)
    case _ => v
  }

  /** An array is copied element by element, in order, each element through `toGpxBuilderObject`. */
  lemma {:induction false} ConvertArray(a: seq<Value>)
    requires Safe(Arr(a))
    ensures Convert(Arr(a)).Arr? && |Convert(Arr(a)).elems| == |a|
    ensures forall i :: 0 <= i < |a| ==> Safe(a[i]) && Convert(Arr(a)).elems[i] == Build(a[i])
  {
  }

  /** `toGpxBuilderObject(v)`: always an object. */
  function Build(v: Value): (r: Value)
    requires Safe(v)
    ensures r.Obj?
    ensures !v.Obj? && !v.Arr? && !v.Str? ==> r == Obj([])
    decreases v, 1
  {
    Obj(Reshape([], Converted(v)))
  }

  /** The members the loop visits, each value already converted. */
  function Converted(v: Value): (r: seq<Member>)
    requires Safe(v)
    ensures |r| == |Enumerate(v)|
    ensures forall i :: 0 <= i < |r| ==> r[i].key == Enumerate(v)[i].key && DollarSafe(r[i])
    decreases v, 0
  {
    match v
    case Obj(ms) => seq(|ms|, i requires 0 <= i < |ms| => Member(ms[i].key, Convert(ms[i].value)))
    case Arr(a) =>
      var r := seq(|a|, i requires 0 <= i < |a| => Member(IndexKey(i), Convert(a[i])));
      assert forall i :: 0 <= i < |r| ==> '$' !in r[i].key;
      r
    case Str(_) =>
      var r := Enumerate(v);
      assert forall i :: 0 <= i < |r| ==> '$' !in r[i].key;
      r
    case _ => []
  }

  /* ---------------------------------------------------------------------
     The reference shape
     --------------------------------------------------------------------- */

  /** The members whose keys are not attributes, in order. */
  function Plain(ms: seq<Member>): seq<Member> {
    if ms == [] then []
    else
      var last := ms[|ms| - 1];
      Plain(ms[..|ms| - 1]) + (if IsAttribute(last.key) then [] else [last])
  }

  /** The attribute members, in order, with the `@` removed. */
  function Attributes(ms: seq<Member>): (r: seq<Member>)
  {
    if ms == [] then []
    else
      var last := ms[|ms| - 1];
      if IsAttribute(last.key) then Attributes(ms[..|ms| - 1]) + [Member(last.key[1..], last.value)]
      else Attributes(ms[..|ms| - 1])
  }

  /** The plain members are exactly the input members that are not attributes. */
  lemma {:induction false} PlainMembers(ms: seq<Member>)
    ensures forall m :: m in Plain(ms) ==> m in ms && !IsAttribute(m.key)
    ensures forall i :: 0 <= i < |ms| && !IsAttribute(ms[i].key) ==> ms[i] in Plain(ms)
  {
    PlainSound(ms);
    PlainComplete(ms);
  }

  lemma {:induction false} PlainSound(ms: seq<Member>)
    ensures forall m :: m in Plain(ms) ==> m in ms && !IsAttribute(m.key)
  {
    if ms != [] {
      PlainSound(ms[..|ms| - 1]);
    }
  }

  lemma {:induction false} PlainComplete(ms: seq<Member>)
    ensures forall i :: 0 <= i < |ms| && !IsAttribute(ms[i].key) ==> ms[i] in Plain(ms)
  {
    if ms != [] {
      var init := ms[..|ms| - 1];
      PlainComplete(init);
      assert Plain(ms) == Plain(init) + (if IsAttribute(ms[|ms| - 1].key) then [] else [ms[|ms| - 1]]);
      forall i | 0 <= i < |ms| && !IsAttribute(ms[i].key)
        ensures ms[i] in Plain(ms)
      {
        if i < |init| {
          assert ms[i] == init[i];
        }
      }
    }
  }

  /** The attributes, with the `@` restored, are exactly the input members that are attributes. */
  lemma {:induction false} AttributesMembers(ms: seq<Member>)
    ensures forall m :: m in Attributes(ms) ==> Member("@" + m.key, m.value) in ms
    ensures forall i :: 0 <= i < |ms| && IsAttribute(ms[i].key) ==> Member(ms[i].key[1..], ms[i].value) in Attributes(ms)
  {
    AttributesSound(ms);
    AttributesComplete(ms);
  }

  lemma {:induction false} AttributesSound(ms: seq<Member>)
    ensures forall m :: m in Attributes(ms) ==> Member("@" + m.key, m.value) in ms
  {
    if ms != [] {
      var last := ms[|ms| - 1];
      AttributesSound(ms[..|ms| - 1]);
      if IsAttribute(last.key) {
        assert "@" + last.key[1..] == last.key;
      }
    }
  }

  lemma {:induction false} AttributesComplete(ms: seq<Member>)
    ensures forall i :: 0 <= i < |ms| && IsAttribute(ms[i].key) ==> Member(ms[i].key[1..], ms[i].value) in Attributes(ms)
  {
    if ms != [] {
      var init := ms[..|ms| - 1];
      var last := ms[|ms| - 1];
      AttributesComplete(init);
      assert Attributes(ms) == Attributes(init) + (if IsAttribute(last.key) then [Member(last.key[1..], last.value)] else []);
      forall i | 0 <= i < |ms| && IsAttribute(ms[i].key)
        ensures Member(ms[i].key[1..], ms[i].value) in Attributes(ms)
      {
        if i < |init| {
          assert ms[i] == init[i];
        }
      }
    }
  }

  /** The index of the first attribute member, or `|ms|` when there is none. */
  function FirstAttribute(ms: seq<Member>): (p: nat)
    ensures p <= |ms|
  {
    if ms == [] then 0
    else if IsAttribute(ms[0].key) then 0
    else 1 + FirstAttribute(ms[1..])
  }

  lemma {:induction false} FirstAttributeIsFirst(ms: seq<Member>)
    ensures var p := FirstAttribute(ms);
            && (p < |ms| ==> IsAttribute(ms[p].key))
            && forall j :: 0 <= j < p ==> !IsAttribute(ms[j].key)
  {
    if ms != [] && !IsAttribute(ms[0].key) {
      FirstAttributeIsFirst(ms[1..]);
    }
  }

  /**
    The rewritten object: plain members keep their places, and the
    attributes, `@` removed and in order, sit in one `$` object where the
    first attribute was. Without attributes there is no `$`.
   */
  function Shape(ms: seq<Member>): seq<Member> {
    var p := FirstAttribute(ms);
    if p == |ms| then ms
    else ms[..p] + [Member("$", Obj(Attributes(ms)))] + Plain(ms[p + 1..])
  }

  predicate NoBagKey(ms: seq<Member>) {
    forall i :: 0 <= i < |ms| ==> ms[i].key != "$"
  }

  /* ---------------------------------------------------------------------
     The loop computes the reference shape
     --------------------------------------------------------------------- */

  /** A key the input lacks, other than `$`, is absent from the shape. */
  lemma {:induction false} ShapeLacks(pre: seq<Member>, k: string)
    requires Find(pre, k).None? && k != "$"
    ensures Find(Shape(pre), k).None?
  {
    var p := FirstAttribute(pre);
    if p < |pre| {
      ShapeBagged(pre);
      FindPrefixNone(pre, p, k);
      FindSuffixNone(pre, p + 1, k);
      PlainLacks(pre[p + 1..], k);
      FindConcatNone(pre[..p], [Member("$", Obj(Attributes(pre)))], k);
      FindConcatNone(pre[..p] + [Member("$", Obj(Attributes(pre)))], Plain(pre[p + 1..]), k);
    } else {
      ShapeAt(pre, p);
    }
  }

  lemma {:induction false} PlainLacks(ms: seq<Member>, k: string)
    requires Find(ms, k).None?
    ensures Find(Plain(ms), k).None?
  {
    if ms != [] {
      var init := ms[..|ms| - 1];
      var last := ms[|ms| - 1];
      assert ms == init + [last];
      FindSnoc(init, last, k);
      PlainLacks(init, k);
      if !IsAttribute(last.key) {
        FindSnoc(Plain(init), last, k);
      }
    }
  }

  lemma {:induction false} FindConcatNone(a: seq<Member>, b: seq<Member>, k: string)
    requires Find(a, k).None? && Find(b, k).None?
    ensures Find(a + b, k).None?
  {
    var s := a + b;
    forall j | 0 <= j < |s|
      ensures s[j].key != k
    {
      if j < |a| {
        assert s[j] == a[j];
      } else {
        assert s[j] == b[j - |a|];
      }
    }
  }

  lemma {:induction false} FindPrefixNone(ms: seq<Member>, p: nat, k: string)
    requires p <= |ms| && Find(ms, k).None?
    ensures Find(ms[..p], k).None?
  {
    assert forall j :: 0 <= j < p ==> ms[..p][j] == ms[j];
  }

  lemma {:induction false} FindSuffixNone(ms: seq<Member>, p: nat, k: string)
    requires p <= |ms| && Find(ms, k).None?
    ensures Find(ms[p..], k).None?
  {
    assert forall j :: 0 <= j < |ms| - p ==> ms[p..][j] == ms[j + p];
  }

  lemma {:induction false} ShapeBag(pre: seq<Member>)
    requires NoBagKey(pre)
    ensures FirstAttribute(pre) == |pre| ==> Find(Shape(pre), "$").None?
    ensures FirstAttribute(pre) < |pre| ==>
              Find(Shape(pre), "$") == Some(FirstAttribute(pre))
              && Shape(pre)[FirstAttribute(pre)] == Member("$", Obj(Attributes(pre)))
  {
    var p := FirstAttribute(pre);
    ShapeAt(pre, p);
    if p < |pre| {
      NoBagKeyPrefix(pre, p);
      FindBefore(pre[..p], Member("$", Obj(Attributes(pre))), Plain(pre[p + 1..]));
    }
  }

  lemma {:induction false} NoBagKeyPrefix(ms: seq<Member>, p: nat)
    requires NoBagKey(ms) && p <= |ms|
    ensures NoBagKey(ms[..p])
  {
  }

  /** `$` first occurs right after a prefix that lacks it. */
  lemma {:induction false} FindBefore(a: seq<Member>, m: Member, b: seq<Member>)
    requires NoBagKey(a) && m.key == "$"
    ensures Find(a + [m] + b, "$") == Some(|a|) && (a + [m] + b)[|a|] == m
  {
    var s := a + [m] + b;
    assert forall i :: 0 <= i < |a| ==> s[i] == a[i];
    FindFirst(s, "$", |a|);
  }

  lemma {:induction false} PlainSnoc(xs: seq<Member>, m: Member)
    ensures !IsAttribute(m.key) ==> Plain(xs + [m]) == Plain(xs) + [m] && Attributes(xs + [m]) == Attributes(xs)
    ensures IsAttribute(m.key) ==>
              Plain(xs + [m]) == Plain(xs) && Attributes(xs + [m]) == Attributes(xs) + [Member(m.key[1..], m.value)]
  {
    assert (xs + [m])[..|xs|] == xs;
  }

  lemma {:induction false} FirstAttributeSnoc(pre: seq<Member>, m: Member)
    ensures FirstAttribute(pre + [m]) ==
              if FirstAttribute(pre) < |pre| then FirstAttribute(pre)
              else if IsAttribute(m.key) then |pre|
              else |pre| + 1
  {
    if pre != [] {
      assert (pre + [m])[0] == pre[0];
      assert (pre + [m])[1..] == pre[1..] + [m];
      FirstAttributeSnoc(pre[1..], m);
    }
  }

  /** `Shape` once the first attribute is known. */
  lemma {:induction false} ShapeAt(ms: seq<Member>, p: nat)
    requires p == FirstAttribute(ms)
    ensures p == |ms| ==> Shape(ms) == ms
    ensures p < |ms| ==> Shape(ms) == ms[..p] + [Member("$", Obj(Attributes(ms)))] + Plain(ms[p + 1..])
  {
  }

  lemma {:induction false} SnocSlices<T>(xs: seq<T>, x: T, i: nat)
    requires i <= |xs|
    ensures (xs + [x])[i..] == xs[i..] + [x]
    ensures (xs + [x])[..i] == xs[..i]
  {
  }

  /** Appending a plain member to the input appends it to the shape. */
  lemma {:induction false} ShapeSnocPlain(pre: seq<Member>, m: Member)
    requires !IsAttribute(m.key)
    ensures Shape(pre + [m]) == Shape(pre) + [m]
  {
    if FirstAttribute(pre) < |pre| {
      ShapeSnocPlainAfterBag(pre, m);
    } else {
      var P := pre + [m];
      assert Shape(pre) == pre by {
        ShapeAt(pre, |pre|);
      }
      assert Shape(P) == P by {
        FirstAttributeSnoc(pre, m);
        ShapeAt(P, |P|);
      }
    }
  }

  lemma {:induction false} ShapeSnocPlainAfterBag(pre: seq<Member>, m: Member)
    requires !IsAttribute(m.key) && FirstAttribute(pre) < |pre|
    ensures Shape(pre + [m]) == Shape(pre) + [m]
  {
    var P := pre + [m];
    var p := FirstAttribute(pre);
    FirstAttributeSnoc(pre, m);
    ShapeAt(pre, p);
    ShapeAt(P, p);
    SnocSlices(pre, m, p);
    PlainSnoc(pre, m);
    PlainTailSnoc(pre, m, p);
    SnocAssoc(pre[..p] + [Member("$", Obj(Attributes(pre)))], Plain(pre[p + 1..]), m);
  }

  lemma {:induction false} PlainTailSnoc(pre: seq<Member>, m: Member, p: nat)
    requires p < |pre|
    ensures !IsAttribute(m.key) ==> Plain((pre + [m])[p + 1..]) == Plain(pre[p + 1..]) + [m]
    ensures IsAttribute(m.key) ==> Plain((pre + [m])[p + 1..]) == Plain(pre[p + 1..])
  {
    SnocSlices(pre, m, p + 1);
    PlainSnoc(pre[p + 1..], m);
  }

  lemma {:induction false} SnocAssoc<T>(a: seq<T>, b: seq<T>, x: T)
    ensures a + (b + [x]) == (a + b) + [x]
  {
  }

  /** Appending an attribute to the input adds it, `@` removed, to the `$` object. */
  lemma {:induction false} ShapeSnocAttribute(pre: seq<Member>, m: Member)
    requires IsAttribute(m.key)
    ensures var p := FirstAttribute(pre);
            var a := Member(m.key[1..], m.value);
            if p < |pre| then
              Shape(pre + [m]) == pre[..p] + [Member("$", Obj(Attributes(pre) + [a]))] + Plain(pre[p + 1..])
            else
              Shape(pre + [m]) == pre + [Member("$", Obj(Attributes(pre) + [a]))]
  {
    if FirstAttribute(pre) < |pre| {
      ShapeSnocAttributeAfterBag(pre, m);
    } else {
      ShapeSnocFirstAttribute(pre, m);
    }
  }

  lemma {:induction false} ShapeSnocAttributeAfterBag(pre: seq<Member>, m: Member)
    requires IsAttribute(m.key) && FirstAttribute(pre) < |pre|
    ensures Shape(pre + [m])
            == pre[..FirstAttribute(pre)] + [Member("$", Obj(Attributes(pre) + [Member(m.key[1..], m.value)]))]
               + Plain(pre[FirstAttribute(pre) + 1..])
  {
    ShapeSnocAttributePieces(pre, m, pre + [m], FirstAttribute(pre));
  }

  lemma {:induction false} ShapeSnocAttributePieces(pre: seq<Member>, m: Member, P: seq<Member>, p: nat)
    requires IsAttribute(m.key) && p == FirstAttribute(pre) && p < |pre| && P == pre + [m]
    ensures Shape(P) == pre[..p] + [Member("$", Obj(Attributes(pre) + [Member(m.key[1..], m.value)]))] + Plain(pre[p + 1..])
  {
    FirstAttributeKept(pre, m);
    AttributesSnocAttribute(pre, m);
    SnocSlices(pre, m, p);
    PlainTailSnocAttribute(pre, m, p);
    ShapeOfPieces(P, p, pre[..p], Attributes(pre) + [Member(m.key[1..], m.value)], Plain(pre[p + 1..]));
  }

  /** `Shape` assembled from separately known pieces. */
  lemma {:induction false} ShapeOfPieces(ms: seq<Member>, p: nat, before: seq<Member>, attrs: seq<Member>, tail: seq<Member>)
    requires p == FirstAttribute(ms) && p < |ms|
    requires ms[..p] == before && Attributes(ms) == attrs && Plain(ms[p + 1..]) == tail
    ensures Shape(ms) == before + [Member("$", Obj(attrs))] + tail
  {
  }

  lemma {:induction false} FirstAttributeKept(pre: seq<Member>, m: Member)
    requires FirstAttribute(pre) < |pre|
    ensures FirstAttribute(pre + [m]) == FirstAttribute(pre)
  {
    FirstAttributeSnoc(pre, m);
  }

  lemma {:induction false} ShapeBagged(ms: seq<Member>)
    requires FirstAttribute(ms) < |ms|
    ensures Shape(ms) == ms[..FirstAttribute(ms)] + [Member("$", Obj(Attributes(ms)))] + Plain(ms[FirstAttribute(ms) + 1..])
  {
  }

  lemma {:induction false} AttributesSnocAttribute(xs: seq<Member>, m: Member)
    requires IsAttribute(m.key)
    ensures Attributes(xs + [m]) == Attributes(xs) + [Member(m.key[1..], m.value)]
  {
    PlainSnoc(xs, m);
  }

  lemma {:induction false} PlainTailSnocAttribute(pre: seq<Member>, m: Member, p: nat)
    requires p < |pre| && IsAttribute(m.key)
    ensures Plain((pre + [m])[p + 1..]) == Plain(pre[p + 1..])
  {
    PlainTailSnoc(pre, m, p);
  }

  lemma {:induction false} ShapeSnocFirstAttribute(pre: seq<Member>, m: Member)
    requires IsAttribute(m.key) && FirstAttribute(pre) == |pre|
    ensures Shape(pre + [m]) == pre + [Member("$", Obj(Attributes(pre) + [Member(m.key[1..], m.value)]))]
  {
    var P := pre + [m];
    FirstAttributeSnoc(pre, m);
    PlainSnoc(pre, m);
    ShapeAt(P, |pre|);
    SnocSlices(pre, m, |pre|);
    assert P[|pre| + 1..] == [];
  }

  lemma {:induction false} StepPlain(pre: seq<Member>, m: Member)
    requires !IsAttribute(m.key) && m.key != "$"
    requires forall i :: 0 <= i < |pre| ==> pre[i].key != m.key
    requires BagReady(Shape(pre))
    ensures Step(Shape(pre), m) == Shape(pre + [m])
  {
    ShapeLacks(pre, m.key);
    ShapeSnocPlain(pre, m);
  }

  /** With no `$` yet, an attribute opens a new bag holding just that attribute. */
  lemma {:induction false} StepOpensBag(acc: seq<Member>, m: Member)
    requires IsAttribute(m.key) && Find(acc, "$").None?
    ensures BagReady(acc) && DollarSafe(m)
    ensures Step(acc, m) == acc + [Member("$", Obj([Member(m.key[1..], m.value)]))]
  {
    var withBag := acc + [Member("$", Obj([]))];
    FindSnoc(acc, Member("$", Obj([])), "$");
    assert Get(withBag, "$") == Some(Obj([]));
    var inner := Member("$", Obj([Member(m.key[1..], m.value)]));
    assert Assign([], m.key[1..], m.value) == [Member(m.key[1..], m.value)];
    assert Find(withBag, "$") == Some(|acc|);
    assert withBag[|acc| := inner] == acc + [inner];
  }

  /** With a bag in place, a new attribute is appended to it and the bag stays where it is. */
  lemma {:induction false} StepFillsBag(acc: seq<Member>, m: Member, p: nat, bag: seq<Member>)
    requires IsAttribute(m.key) && Find(acc, "$") == Some(p) && acc[p] == Member("$", Obj(bag))
    requires Find(bag, m.key[1..]).None?
    ensures BagReady(acc) && DollarSafe(m)
    ensures Step(acc, m) == acc[p := Member("$", Obj(bag + [Member(m.key[1..], m.value)]))]
  {
    var k := m.key[1..];
    var filled := Obj(bag + [Member(k, m.value)]);
    assert Get(acc, "$") == Some(Obj(bag));
    assert Assign(bag, k, m.value) == bag + [Member(k, m.value)];
    assert Assign(acc, "$", filled) == acc[p := Member("$", filled)];
  }

  lemma {:induction false} NoAttributes(ms: seq<Member>)
    requires FirstAttribute(ms) == |ms|
    ensures Attributes(ms) == []
  {
    FirstAttributeIsFirst(ms);
    AttributesNone(ms);
  }

  /** Without attribute members there are no attributes. */
  lemma {:induction false} AttributesNone(ms: seq<Member>)
    requires forall i :: 0 <= i < |ms| ==> !IsAttribute(ms[i].key)
    ensures Attributes(ms) == []
  {
    if ms != [] {
      AttributesNone(ms[..|ms| - 1]);
    }
  }

  /** An attribute whose key is new to the input is new to the bag. */
  lemma {:induction false} AttributeFresh(pre: seq<Member>, m: Member)
    requires IsAttribute(m.key)
    requires forall i :: 0 <= i < |pre| ==> pre[i].key != m.key
    ensures Find(Attributes(pre), m.key[1..]).None?
  {
    if pre != [] {
      var init := pre[..|pre| - 1];
      var last := pre[|pre| - 1];
      AttributeFresh(init, m);
      if IsAttribute(last.key) {
        assert last.key[1..] != m.key[1..] by {
          assert last.key == [last.key[0]] + last.key[1..];
          assert m.key == [m.key[0]] + m.key[1..];
        }
        FindSnoc(Attributes(init), Member(last.key[1..], last.value), m.key[1..]);
      }
    }
  }

  lemma {:induction false} UpdateMiddle<T>(a: seq<T>, x: T, b: seq<T>, y: T)
    ensures (a + [x] + b)[|a| := y] == a + [y] + b
  {
  }

  lemma {:induction false} StepFirstAttribute(pre: seq<Member>, m: Member)
    requires NoBagKey(pre) && IsAttribute(m.key) && FirstAttribute(pre) == |pre|
    ensures BagReady(Shape(pre))
    ensures Step(Shape(pre), m) == Shape(pre + [m])
  {
    var a := Member(m.key[1..], m.value);
    ShapeBag(pre);
    ShapeAt(pre, |pre|);
    StepOpensBag(pre, m);
    NoAttributes(pre);
    assert Attributes(pre) + [a] == [a];
    ShapeSnocAttribute(pre, m);
  }

  lemma {:induction false} StepLaterAttribute(pre: seq<Member>, m: Member)
    requires NoBagKey(pre) && IsAttribute(m.key) && FirstAttribute(pre) < |pre|
    requires forall i :: 0 <= i < |pre| ==> pre[i].key != m.key
    ensures BagReady(Shape(pre))
    ensures Step(Shape(pre), m) == Shape(pre + [m])
  {
    var p := FirstAttribute(pre);
    var A := Attributes(pre);
    var before := pre[..p];
    var tail := Plain(pre[p + 1..]);
    ShapeBag(pre);
    ShapeBagged(pre);
    AttributeFresh(pre, m);
    StepIntoBag(before, A, tail, m);
    ShapeSnocAttributeAfterBag(pre, m);
  }

  /** `StepFillsBag` for an object split around its bag. */
  lemma {:induction false} StepIntoBag(before: seq<Member>, A: seq<Member>, tail: seq<Member>, m: Member)
    requires IsAttribute(m.key) && Find(A, m.key[1..]).None?
    requires Find(before + [Member("$", Obj(A))] + tail, "$") == Some(|before|)
    ensures BagReady(before + [Member("$", Obj(A))] + tail) && DollarSafe(m)
    ensures Step(before + [Member("$", Obj(A))] + tail, m)
            == before + [Member("$", Obj(A + [Member(m.key[1..], m.value)]))] + tail
  {
    var bag := Member("$", Obj(A));
    var S := before + [bag] + tail;
    assert S[|before|] == bag;
    StepFillsBag(S, m, |before|, A);
    UpdateMiddle(before, bag, tail, Member("$", Obj(A + [Member(m.key[1..], m.value)])));
  }

  /** One loop step turns the shape of a prefix into the shape of the prefix one longer. */
  lemma {:induction false} StepShape(pre: seq<Member>, m: Member)
    requires DistinctKeys(pre + [m]) && NoBagKey(pre + [m])
    ensures NoBagKey(pre) && BagReady(Shape(pre)) && DollarSafe(m)
    ensures Step(Shape(pre), m) == Shape(pre + [m])
  {
    assert forall i :: 0 <= i < |pre| ==> (pre + [m])[i] == pre[i];
    assert (pre + [m])[|pre|] == m;
    assert forall i :: 0 <= i < |pre| ==> pre[i].key != m.key;
    ShapeBag(pre);
    if !IsAttribute(m.key) {
      StepPlain(pre, m);
    } else if FirstAttribute(pre) == |pre| {
      StepFirstAttribute(pre, m);
    } else {
      StepLaterAttribute(pre, m);
    }
  }

  lemma {:induction false} ReshapeSuffix(ms: seq<Member>, j: nat)
    requires j <= |ms| && DistinctKeys(ms) && NoBagKey(ms)
    ensures BagReady(Shape(ms[..j])) && forall i :: 0 <= i < |ms[j..]| ==> DollarSafe(ms[j..][i])
    ensures Reshape(Shape(ms[..j]), ms[j..]) == Shape(ms)
    decreases |ms| - j
  {
    if j == |ms| {
      assert ms[..j] == ms;
      ShapeBag(ms);
    } else {
      assert ms[..j + 1] == ms[..j] + [ms[j]];
      StepShape(ms[..j], ms[j]);
      assert ms[j..][1..] == ms[j + 1..];
      ReshapeSuffix(ms, j + 1);
    }
  }

  /**
    The assignment loop builds exactly the reference shape, for objects
    with distinct keys none of which is `$`.
   */
  lemma {:induction false} ReshapeIsShape(ms: seq<Member>)
    requires DistinctKeys(ms) && NoBagKey(ms)
    ensures forall i :: 0 <= i < |ms| ==> DollarSafe(ms[i])
    ensures Reshape([], ms) == Shape(ms)
  {
    ReshapeSuffix(ms, 0);
    assert ms[..0] == [] && ms[0..] == ms;
  }

  /* ---------------------------------------------------------------------
     Properties of the reference shape
     --------------------------------------------------------------------- */

  /** Splitting the input splits the plain members and the attributes alike. */
  lemma {:induction false} PlainAppend(a: seq<Member>, b: seq<Member>)
    ensures Plain(a + b) == Plain(a) + Plain(b)
    ensures Attributes(a + b) == Attributes(a) + Attributes(b)
    decreases |b|
  {
    if b != [] {
      var init := b[..|b| - 1];
      var last := b[|b| - 1];
      assert a + b == (a + init) + [last];
      assert b == init + [last];
      PlainAppend(a, init);
      PlainSnoc(a + init, last);
      PlainSnoc(init, last);
    } else {
      assert a + b == a;
    }
  }

  /** Without attributes every member is plain. */
  lemma {:induction false} PlainNone(ms: seq<Member>)
    requires forall i :: 0 <= i < |ms| ==> !IsAttribute(ms[i].key)
    ensures Plain(ms) == ms && Attributes(ms) == []
  {
    if ms != [] {
      var init := ms[..|ms| - 1];
      PlainNone(init);
      assert ms == init + [ms[|ms| - 1]];
    }
  }

  /** When every member is an attribute, all of them go to the bag, `@` removed. */
  lemma {:induction false} AttributesAll(ms: seq<Member>)
    requires forall i :: 0 <= i < |ms| ==> IsAttribute(ms[i].key)
    ensures Plain(ms) == []
    ensures |Attributes(ms)| == |ms|
    ensures forall i :: 0 <= i < |ms| ==> IsAttribute(ms[i].key) && Attributes(ms)[i] == Member(ms[i].key[1..], ms[i].value)
  {
    if ms != [] {
      var init := ms[..|ms| - 1];
      AttributesAll(init);
      assert Attributes(ms) == Attributes(init) + [Member(ms[|ms| - 1].key[1..], ms[|ms| - 1].value)];
    }
  }

  /**
    The `$` member exists exactly when the input has an attribute, and it
    is then the first attribute's place that it takes.
   */
  lemma {:induction false} BagIffAttribute(ms: seq<Member>)
    requires NoBagKey(ms)
    ensures Find(Shape(ms), "$").Some? <==> exists i :: 0 <= i < |ms| && IsAttribute(ms[i].key)
    ensures Find(Shape(ms), "$").Some? ==> Find(Shape(ms), "$").value == FirstAttribute(ms)
  {
    FirstAttributeIsFirst(ms);
    ShapeBag(ms);
  }

  /* ---------------------------------------------------------------------
     Objects laid out as attributes, then plain members, then attributes
     --------------------------------------------------------------------- */

  /** An object is safe exactly when both halves of it are. */
  lemma {:induction false} SafeAppend(x: seq<Member>, y: seq<Member>)
    ensures Safe(Obj(x + y)) <==> Safe(Obj(x)) && Safe(Obj(y))
  {
    assert forall i :: 0 <= i < |y| ==> (x + y)[|x| + i] == y[i];
    assert forall i :: 0 <= i < |x + y| ==> (x + y)[i] == if i < |x| then x[i] else y[i - |x|];
  }

  /** Converting an object member by member commutes with splitting it. */
  lemma {:induction false} ConvertedAppend(x: seq<Member>, y: seq<Member>)
    requires Safe(Obj(x + y))
    ensures Safe(Obj(x)) && Safe(Obj(y))
    ensures Converted(Obj(x + y)) == Converted(Obj(x)) + Converted(Obj(y))
  {
    SafeAppend(x, y);
    assert forall i :: 0 <= i < |x + y| ==> (x + y)[i] == if i < |x| then x[i] else y[i - |x|];
  }

  /** Members whose values are not object-typed are copied unchanged. */
  lemma {:induction false} ConvertedScalars(ms: seq<Member>)
    requires forall i :: 0 <= i < |ms| ==> ms[i].key != "$" && !IsObjectType(ms[i].value)
    ensures Safe(Obj(ms)) && Converted(Obj(ms)) == ms
  {
    assert Safe(Obj(ms));
    assert forall i :: 0 <= i < |ms| ==> Converted(Obj(ms))[i] == ms[i];
  }

  lemma {:induction false} FirstAttributeNone(ms: seq<Member>)
    requires forall i :: 0 <= i < |ms| ==> !IsAttribute(ms[i].key)
    ensures FirstAttribute(ms) == |ms|
  {
    if ms != [] {
      FirstAttributeNone(ms[1..]);
    }
  }

  /** Conversion keeps every key, so it keeps distinctness and the absence of `$`. */
  lemma {:induction false} ConvertedKeys(ms: seq<Member>)
    requires Safe(Obj(ms))
    ensures var cs := Converted(Obj(ms));
            |cs| == |ms| && forall i :: 0 <= i < |ms| ==> cs[i].key == ms[i].key
    ensures DistinctKeys(ms) ==> DistinctKeys(Converted(Obj(ms)))
    ensures NoBagKey(ms) ==> NoBagKey(Converted(Obj(ms)))
  {
  }

  /** An object without attributes is copied member by member. */
  lemma {:induction false} BuildPlain(b: seq<Member>)
    requires forall i :: 0 <= i < |b| ==> !IsAttribute(b[i].key)
    requires DistinctKeys(b) && NoBagKey(b) && Safe(Obj(b))
    ensures Build(Obj(b)) == Obj(Converted(Obj(b)))
  {
    var cs := Converted(Obj(b));
    ConvertedKeys(b);
    ReshapeIsShape(cs);
    FirstAttributeNone(cs);
    ShapeAt(cs, |cs|);
  }

  /**
    An object whose attributes all come before or after its plain members:
    the bag takes the first place and holds every attribute in order, and
    the plain members follow, converted.
   */
  lemma {:induction false} BuildLayout(a: seq<Member>, b: seq<Member>, c: seq<Member>)
    requires a != []
    requires forall i :: 0 <= i < |a| ==> IsAttribute(a[i].key)
    requires forall i :: 0 <= i < |b| ==> !IsAttribute(b[i].key)
    requires forall i :: 0 <= i < |c| ==> IsAttribute(c[i].key)
    requires DistinctKeys(a + b + c) && NoBagKey(a + b + c) && Safe(Obj(a + b + c))
    ensures Safe(Obj(a)) && Safe(Obj(b)) && Safe(Obj(c))
    ensures Build(Obj(a + b + c))
            == Obj([Member("$", Obj(Attributes(Converted(Obj(a))) + Attributes(Converted(Obj(c)))))] + Converted(Obj(b)))
  {
    SafeAppend(a + b, c);
    SafeAppend(a, b);
    LayoutConverted(a, b, c);
    var ca, cb, cc := Converted(Obj(a)), Converted(Obj(b)), Converted(Obj(c));
    ReshapeLayout(ca, cb, cc);
  }

  /** The common case of that layout: attributes first, then plain members only. */
  lemma {:induction false} BuildAttributesFirst(a: seq<Member>, b: seq<Member>)
    requires a != []
    requires forall i :: 0 <= i < |a| ==> IsAttribute(a[i].key)
    requires forall i :: 0 <= i < |b| ==> !IsAttribute(b[i].key)
    requires DistinctKeys(a + b) && NoBagKey(a + b) && Safe(Obj(a + b))
    ensures Safe(Obj(a)) && Safe(Obj(b))
    ensures Build(Obj(a + b)) == Obj([Member("$", Obj(Attributes(Converted(Obj(a)))))] + Converted(Obj(b)))
  {
    assert a + b + [] == a + b;
    BuildLayout(a, b, []);
    assert Converted(Obj([])) == [] && Attributes([]) == [];
    assert Attributes(Converted(Obj(a))) + [] == Attributes(Converted(Obj(a)));
  }

  /** Conversion of the three parts, and the key facts it keeps. */
  lemma {:induction false} LayoutConverted(a: seq<Member>, b: seq<Member>, c: seq<Member>)
    requires a != []
    requires forall i :: 0 <= i < |a| ==> IsAttribute(a[i].key)
    requires forall i :: 0 <= i < |b| ==> !IsAttribute(b[i].key)
    requires forall i :: 0 <= i < |c| ==> IsAttribute(c[i].key)
    requires DistinctKeys(a + b + c) && NoBagKey(a + b + c)
    requires Safe(Obj(a)) && Safe(Obj(b)) && Safe(Obj(c))
    ensures Safe(Obj(a + b + c))
    ensures var ca, cb, cc := Converted(Obj(a)), Converted(Obj(b)), Converted(Obj(c));
            && Converted(Obj(a + b + c)) == ca + cb + cc
            && ca != []
            && (forall i :: 0 <= i < |ca| ==> IsAttribute(ca[i].key))
            && (forall i :: 0 <= i < |cb| ==> !IsAttribute(cb[i].key))
            && (forall i :: 0 <= i < |cc| ==> IsAttribute(cc[i].key))
            && DistinctKeys(ca + cb + cc) && NoBagKey(ca + cb + cc)
  {
    SafeAppend(a, b);
    SafeAppend(a + b, c);
    ConvertedKeys(a + b + c);
    ConvertedAppend(a, b);
    ConvertedAppend(a + b, c);
    ConvertedKeys(a);
    ConvertedKeys(b);
    ConvertedKeys(c);
  }

  /** The loop on an attributes, plain, attributes layout. */
  lemma {:induction false} ReshapeLayout(ca: seq<Member>, cb: seq<Member>, cc: seq<Member>)
    requires ca != []
    requires forall i :: 0 <= i < |ca| ==> IsAttribute(ca[i].key)
    requires forall i :: 0 <= i < |cb| ==> !IsAttribute(cb[i].key)
    requires forall i :: 0 <= i < |cc| ==> IsAttribute(cc[i].key)
    requires DistinctKeys(ca + cb + cc) && NoBagKey(ca + cb + cc)
    ensures forall i :: 0 <= i < |ca + cb + cc| ==> DollarSafe((ca + cb + cc)[i])
    ensures Reshape([], ca + cb + cc) == [Member("$", Obj(Attributes(ca) + Attributes(cc)))] + cb
  {
    LayoutShape(ca, cb, cc);
    ReshapeIsShape(ca + cb + cc);
  }

  lemma {:induction false} LayoutShape(ca: seq<Member>, cb: seq<Member>, cc: seq<Member>)
    requires ca != []
    requires forall i :: 0 <= i < |ca| ==> IsAttribute(ca[i].key)
    requires forall i :: 0 <= i < |cb| ==> !IsAttribute(cb[i].key)
    requires forall i :: 0 <= i < |cc| ==> IsAttribute(cc[i].key)
    ensures Shape(ca + cb + cc) == [Member("$", Obj(Attributes(ca) + Attributes(cc)))] + cb
  {
    var bag := Member("$", Obj(Attributes(ca) + Attributes(cc)));
    LayoutPieces(ca, cb, cc);
    ShapeOfPieces(ca + cb + cc, 0, [], Attributes(ca) + Attributes(cc), cb);
    assert [] + [bag] + cb == [bag] + cb;
  }

  /** `Shape`'s pieces for an attributes, plain, attributes layout. */
  lemma {:induction false} LayoutPieces(ca: seq<Member>, cb: seq<Member>, cc: seq<Member>)
    requires ca != []
    requires forall i :: 0 <= i < |ca| ==> IsAttribute(ca[i].key)
    requires forall i :: 0 <= i < |cb| ==> !IsAttribute(cb[i].key)
    requires forall i :: 0 <= i < |cc| ==> IsAttribute(cc[i].key)
    ensures FirstAttribute(ca + cb + cc) == 0
    ensures (ca + cb + cc)[..0] == []
    ensures Attributes(ca + cb + cc) == Attributes(ca) + Attributes(cc)
    ensures Plain((ca + cb + cc)[1..]) == cb
  {
    assert (ca + cb + cc)[0] == ca[0];
    LayoutAttributes(ca, cb, cc);
    assert (ca + cb + cc)[1..] == ca[1..] + cb + cc;
    LayoutPlain(ca[1..], cb, cc);
  }

  lemma {:induction false} LayoutAttributes(ca: seq<Member>, cb: seq<Member>, cc: seq<Member>)
    requires forall i :: 0 <= i < |cb| ==> !IsAttribute(cb[i].key)
    ensures Attributes(ca + cb + cc) == Attributes(ca) + Attributes(cc)
  {
    PlainAppend(ca + cb, cc);
    PlainAppend(ca, cb);
    PlainNone(cb);
    assert Attributes(ca) + [] == Attributes(ca);
  }

  lemma {:induction false} LayoutPlain(ca: seq<Member>, cb: seq<Member>, cc: seq<Member>)
    requires forall i :: 0 <= i < |ca| ==> IsAttribute(ca[i].key)
    requires forall i :: 0 <= i < |cb| ==> !IsAttribute(cb[i].key)
    requires forall i :: 0 <= i < |cc| ==> IsAttribute(cc[i].key)
    ensures Plain(ca + cb + cc) == cb
  {
    PlainAppend(ca + cb, cc);
    PlainAppend(ca, cb);
    AttributesAll(ca);
    AttributesAll(cc);
    PlainNone(cb);
    assert [] + cb + [] == cb;
  }

  /* ---------------------------------------------------------------------
     Where each key ends up
     --------------------------------------------------------------------- */

  /** The bag under `$` is an object binding `k` to `v`. */
  predicate BagHolds(acc: seq<Member>, k: string, v: Value) {
    var b := Get(acc, "$");
    b.Some? && b.value.Obj? && Get(b.value.members, k) == Some(v)
  }

  /** An iteration leaves every key other than `$` and its own alone. */
  lemma {:induction false} StepKeepsKey(acc: seq<Member>, m: Member, k: string)
    requires BagReady(acc) && DollarSafe(m)
    requires k != "$" && m.key != k
    ensures Get(Step(acc, m), k) == Get(acc, k)
  {
  }

  lemma {:induction false} StepSetsKey(acc: seq<Member>, m: Member)
    requires BagReady(acc) && DollarSafe(m) && !IsAttribute(m.key)
    ensures Get(Step(acc, m), m.key) == Some(m.value)
  {
  }

  lemma {:induction false} ReshapeKeepsKey(acc: seq<Member>, ms: seq<Member>, k: string)
    requires BagReady(acc) && forall j :: 0 <= j < |ms| ==> DollarSafe(ms[j])
    requires k != "$" && forall j :: 0 <= j < |ms| ==> ms[j].key != k
    ensures Get(Reshape(acc, ms), k) == Get(acc, k)
    decreases |ms|
  {
    if ms != [] {
      StepKeepsKey(acc, ms[0], k);
      ReshapeKeepsKey(Step(acc, ms[0]), ms[1..], k);
    }
  }

  /** A plain member, its key unique in the object, ends up under its own key. */
  lemma {:induction false} ReshapeSetsKey(acc: seq<Member>, ms: seq<Member>, i: nat)
    requires BagReady(acc) && forall j :: 0 <= j < |ms| ==> DollarSafe(ms[j])
    requires i < |ms| && !IsAttribute(ms[i].key) && ms[i].key != "$"
    requires forall j :: 0 <= j < |ms| && j != i ==> ms[j].key != ms[i].key
    ensures Get(Reshape(acc, ms), ms[i].key) == Some(ms[i].value)
    decreases |ms|
  {
    var next := Step(acc, ms[0]);
    var rest := ms[1..];
    ReshapeUnfold(acc, ms);
    if i == 0 {
      StepSetsKey(acc, ms[0]);
      HeadUniqueInRest(ms);
      ReshapeKeepsKey(next, rest, ms[0].key);
    } else {
      assert rest[i - 1] == ms[i];
      StepKeepsKey(acc, ms[0], ms[i].key);
      UniqueInRest(ms, i);
      ReshapeSetsKey(next, rest, i - 1);
    }
  }

  /** A key unique in `ms` at 0 is absent from `ms[1..]`. */
  lemma {:induction false} HeadUniqueInRest(ms: seq<Member>)
    requires 0 < |ms|
    requires forall j :: 0 < j < |ms| ==> ms[j].key != ms[0].key
    ensures forall j :: 0 <= j < |ms[1..]| ==> ms[1..][j].key != ms[0].key
  {
    forall j | 0 <= j < |ms[1..]|
      ensures ms[1..][j].key != ms[0].key
    {
      assert ms[1..][j] == ms[j + 1];
    }
  }

  /** A key unique in `ms` at `i > 0` is unique in `ms[1..]` at `i - 1`. */
  lemma {:induction false} UniqueInRest(ms: seq<Member>, i: nat)
    requires 0 < i < |ms|
    requires forall j :: 0 <= j < |ms| && j != i ==> ms[j].key != ms[i].key
    ensures forall j :: 0 <= j < |ms[1..]| && j != i - 1 ==> ms[1..][j].key != ms[1..][i - 1].key
  {
    forall j | 0 <= j < |ms[1..]| && j != i - 1
      ensures ms[1..][j].key != ms[1..][i - 1].key
    {
      assert ms[1..][j] == ms[j + 1] && ms[1..][i - 1] == ms[i];
    }
  }

  /** An iteration on any key but `$` and `@k` keeps `k`'s entry in the bag. */
  lemma {:induction false} StepKeepsBag(acc: seq<Member>, m: Member, k: string, v: Value)
    requires BagReady(acc) && DollarSafe(m) && BagHolds(acc, k, v)
    requires m.key != "$" && m.key != "@" + k
    ensures BagHolds(Step(acc, m), k, v)
  {
    if IsAttribute(m.key) {
      assert m.key[1..] != k by {
        assert m.key == "@" + m.key[1..];
      }
      var bag := Get(acc, "$").value;
      assert Present(Get(acc, "$"));
      var inner := Assign(bag.members, m.key[1..], m.value);
      assert Step(acc, m) == Assign(acc, "$", Obj(inner));
      assert Get(inner, k) == Get(bag.members, k);
    } else {
      assert Step(acc, m) == Assign(acc, m.key, m.value);
    }
  }

  lemma {:induction false} ReshapeKeepsBag(acc: seq<Member>, ms: seq<Member>, k: string, v: Value)
    requires BagReady(acc) && forall j :: 0 <= j < |ms| ==> DollarSafe(ms[j])
    requires BagHolds(acc, k, v)
    requires forall j :: 0 <= j < |ms| ==> ms[j].key != "$" && ms[j].key != "@" + k
    ensures BagHolds(Reshape(acc, ms), k, v)
    decreases |ms|
  {
    if ms != [] {
      StepKeepsBag(acc, ms[0], k, v);
      ReshapeKeepsBag(Step(acc, ms[0]), ms[1..], k, v);
    }
  }

  /** An attribute `@k`, unique in an object without a `$` key, ends up as the bag's `k`. */
  lemma {:induction false} ReshapeMovesAttribute(acc: seq<Member>, ms: seq<Member>, i: nat)
    requires BagReady(acc) && forall j :: 0 <= j < |ms| ==> DollarSafe(ms[j])
    requires i < |ms| && IsAttribute(ms[i].key) && NoBagKey(ms)
    requires forall j :: 0 <= j < |ms| && j != i ==> ms[j].key != ms[i].key
    ensures BagHolds(Reshape(acc, ms), ms[i].key[1..], ms[i].value)
    decreases |ms|
  {
    if i == 0 {
      MovesHeadAttribute(acc, ms);
    } else {
      var next := Step(acc, ms[0]);
      var rest := ms[1..];
      UniqueInRest(ms, i);
      NoBagKeyRest(ms);
      assert rest[i - 1] == ms[i];
      ReshapeMovesAttribute(next, rest, i - 1);
      ReshapeUnfold(acc, ms);
    }
  }

  /** One turn of the loop. */
  lemma {:induction false} ReshapeUnfold(acc: seq<Member>, ms: seq<Member>)
    requires BagReady(acc) && forall j :: 0 <= j < |ms| ==> DollarSafe(ms[j])
    requires ms != []
    ensures BagReady(Step(acc, ms[0])) && forall j :: 0 <= j < |ms[1..]| ==> DollarSafe(ms[1..][j])
    ensures Reshape(acc, ms) == Reshape(Step(acc, ms[0]), ms[1..])
  {
  }

  /** The first member, an attribute unique in the object, ends up in the bag. */
  lemma {:induction false} MovesHeadAttribute(acc: seq<Member>, ms: seq<Member>)
    requires BagReady(acc) && forall j :: 0 <= j < |ms| ==> DollarSafe(ms[j])
    requires 0 < |ms| && IsAttribute(ms[0].key) && NoBagKey(ms)
    requires forall j :: 0 < j < |ms| ==> ms[j].key != ms[0].key
    ensures BagHolds(Reshape(acc, ms), ms[0].key[1..], ms[0].value)
  {
    var next := Step(acc, ms[0]);
    var rest := ms[1..];
    var k := ms[0].key[1..];
    assert ms[0].key == "@" + k;
    ReshapeUnfold(acc, ms);
    HeadUniqueInRest(ms);
    NoBagKeyRest(ms);
    StepMovesAttribute(acc, ms[0]);
    ReshapeKeepsBag(next, rest, k, ms[0].value);
  }

  lemma {:induction false} NoBagKeyRest(ms: seq<Member>)
    requires 0 < |ms| && NoBagKey(ms)
    ensures NoBagKey(ms[1..])
  {
  }

  lemma {:induction false} StepMovesAttribute(acc: seq<Member>, m: Member)
    requires BagReady(acc) && DollarSafe(m) && IsAttribute(m.key)
    ensures BagHolds(Step(acc, m), m.key[1..], m.value)
  {
  }


  /**
    `toGpxBuilderObject` on an object with distinct keys and no `$` key:
    every plain key keeps its (converted) value under the same name.
   */
  lemma {:induction false} BuildKeepsPlain(ms: seq<Member>, i: nat)
    requires Safe(Obj(ms)) && DistinctKeys(ms) && NoBagKey(ms)
    requires i < |ms| && !IsAttribute(ms[i].key)
    ensures Safe(ms[i].value)
    ensures Get(Build(Obj(ms)).members, ms[i].key) == Some(Convert(ms[i].value))
  {
    var cs := Converted(Obj(ms));
    ConvertedKeys(ms);
    assert cs[i] == Member(ms[i].key, Convert(ms[i].value));
    ReshapeSetsKey([], cs, i);
  }

  /** ... and every `@k` key's (converted) value is the bag's `k`. */
  lemma {:induction false} BuildMovesAttribute(ms: seq<Member>, i: nat)
    requires Safe(Obj(ms)) && DistinctKeys(ms) && NoBagKey(ms)
    requires i < |ms| && IsAttribute(ms[i].key)
    ensures Safe(ms[i].value)
    ensures BagHolds(Build(Obj(ms)).members, ms[i].key[1..], Convert(ms[i].value))
  {
    var cs := Converted(Obj(ms));
    ConvertedKeys(ms);
    assert cs[i] == Member(ms[i].key, Convert(ms[i].value));
    ReshapeMovesAttribute([], cs, i);
  }

  /** ... and the result has a `$` key exactly when the object has an `@` key. */
  lemma {:induction false} BuildBagIff(ms: seq<Member>)
    requires Safe(Obj(ms)) && DistinctKeys(ms) && NoBagKey(ms)
    ensures Get(Build(Obj(ms)).members, "$").Some? <==> exists i :: 0 <= i < |ms| && IsAttribute(ms[i].key)
  {
    var cs := Converted(Obj(ms));
    ConvertedKeys(ms);
    ReshapeIsShape(cs);
    BagIffAttribute(cs);
    if exists i :: 0 <= i < |ms| && IsAttribute(ms[i].key) {
      var i :| 0 <= i < |ms| && IsAttribute(ms[i].key);
      assert IsAttribute(cs[i].key);
    } else {
      assert forall i :: 0 <= i < |cs| ==> !IsAttribute(cs[i].key);
    }
  }
}

=== FILE: extractors.dfy ===
/**
  The default extractors `togpx` applies to a feature's properties: a
  title, a description and the per-coordinate time list.
 */
module Extractors {
  import opened Json

  /* ---------------------------------------------------------------------
     Title
     --------------------------------------------------------------------- */

  /**
    `get_feature_title`: a title found under a nested object-typed `tags`
    wins when it is non-empty; otherwise the first truthy of `name`, `ref`
    and `id`; otherwise the empty string. Only objects carry these
    properties, so every other value, truthy or not, gives "".
   */
  function Title(props: Value): (r: Value)
    ensures r == Str("") || Truthy(r)
  {
    match props
    case Obj(ms) =>
      var fromTags :=
        match Find(ms, "tags")
        case Some(i) => if IsObjectType(ms[i].value) then Title(ms[i].value) else Str("")
        case None => Str("");
      if fromTags != Str("") then fromTags else OwnTitle(ms)
    case _ => Str("")
  }

  /** The first truthy of `name`, `ref` and `id`, else "". */
  function OwnTitle(ms: seq<Member>): Value {
    if Present(Get(ms, "name")) then Get(ms, "name").value
    else if Present(Get(ms, "ref")) then Get(ms, "ref").value
    else if Present(Get(ms, "id")) then Get(ms, "id").value
    else Str("")
  }

  /** `[v]` when `ms[k]` is truthy, else nothing. */
  function Candidate(ms: seq<Member>, k: string): (c: seq<Value>)
    ensures |c| <= 1 && forall i :: 0 <= i < |c| ==> Truthy(c[i])
  {
    if Present(Get(ms, k)) then [Get(ms, k).value] else []
  }

  /** This object's own candidates: its truthy `name`, `ref` and `id`, in that order. */
  function OwnCandidates(ms: seq<Member>): (c: seq<Value>)
    ensures forall i :: 0 <= i < |c| ==> Truthy(c[i])
  {
    Candidate(ms, "name") + Candidate(ms, "ref") + Candidate(ms, "id")
  }

  /**
    Every value that could serve as a title, best first: the candidates of
    the nested `tags` chain, then this object's own `name`, `ref`, `id`.
   */
  function TitleCandidates(props: Value): seq<Value> {
    match props
    case Obj(ms) =>
      var nested :=
        match Find(ms, "tags")
        case Some(i) => if IsObjectType(ms[i].value) then TitleCandidates(ms[i].value) else []
        case None => [];
      nested + OwnCandidates(ms)
    case _ => []
  }

  lemma {:induction false} OwnTitleIsFirst(ms: seq<Member>)
    ensures OwnTitle(ms) == if |OwnCandidates(ms)| > 0 then OwnCandidates(ms)[0] else Str("")
  {
  }

  /**
    The title is the first of the candidates, or "" when there is none;
    every candidate is truthy, so a falsy `name` such as "" falls through
    to `ref`.
   */
  lemma {:induction false} TitleIsFirstCandidate(props: Value)
    ensures forall i :: 0 <= i < |TitleCandidates(props)| ==> Truthy(TitleCandidates(props)[i])
    ensures Title(props) == if |TitleCandidates(props)| > 0 then TitleCandidates(props)[0] else Str("")
  {
    match props
    case Obj(ms) =>
      var nested: seq<Value> := [];
      match Find(ms, "tags") {
        case Some(i) =>
          if IsObjectType(ms[i].value) {
            TitleIsFirstCandidate(ms[i].value);
            nested := TitleCandidates(ms[i].value);
          }
        case None =>
      }
      OwnTitleIsFirst(ms);
      CandidatesJoin(nested, OwnCandidates(ms));
    case _ =>
  }

  /** Truthy candidate lists keep their first element and their truthiness when joined. */
  lemma {:induction false} CandidatesJoin(nested: seq<Value>, own: seq<Value>)
    requires forall i :: 0 <= i < |nested| ==> Truthy(nested[i])
    requires forall i :: 0 <= i < |own| ==> Truthy(own[i])
    ensures forall i :: 0 <= i < |nested + own| ==> Truthy((nested + own)[i])
    ensures |nested| > 0 ==> (nested + own)[0] == nested[0]
    ensures |nested| == 0 ==> nested + own == own
  {
  }

  /* ---------------------------------------------------------------------
     Description
     --------------------------------------------------------------------- */

  /** `"" + v` for the non-object values a description prints; number formatting is the host's. */
  function Stringify(v: Value, numberText: real -> string): string
    requires !IsObjectType(v)
  {
    if v.Str? then v.s
    else if v.Bool? then (if v.b then "true" else "false")
    else if v.Num? then numberText(v.n)
    else ""
  }

  /** The `key=value` text of one member whose value is not object-typed. */
  function Entry(m: Member, numberText: real -> string): string
    requires !IsObjectType(m.value)
  {
    m.key + "=" + Stringify(m.value, numberText)
  }

  /** The loop's running `res`: one `key=value\n` per member that is not object-typed. */
  function Accumulate(ms: seq<Member>, numberText: real -> string): string {
    if ms == [] then ""
    else
      var last := ms[|ms| - 1];
      Accumulate(ms[..|ms| - 1], numberText)
        + (if IsObjectType(last.value) then "" else Entry(last, numberText) + "\n")
  }

  /** `res.substr(0, res.length - 1)`; a negative length yields "". */
  function DropLast(s: string): string {
    if s == "" then "" else s[..|s| - 1]
  }

  /**
    `get_feature_description`: with an object-typed `tags` (null and arrays
    included) the description is that of `tags` alone; otherwise the
    members are listed. The result is the newline join of `key=value` over
    the described members whose values are not object-typed, with no
    trailing newline; none at all gives "".
   */
  function Description(props: Value, numberText: real -> string): (r: string)
    ensures r == JoinLines(Entries(DescribedMembers(props), numberText))
  {
    if !Truthy(props) then ""
    else match props
      case Obj(ms) =>
        var t := Find(ms, "tags");
        if t.Some? && IsObjectType(ms[t.value].value) then Description(ms[t.value].value, numberText)
        else ListingIsJoin(ms, numberText); DropLast(Accumulate(ms, numberText))
      case _ => ListingIsJoin(Enumerate(props), numberText); DropLast(Accumulate(Enumerate(props), numberText))
  }

  /** Reference view: the `key=value` lines, scalar members only, in member order. */
  function Entries(ms: seq<Member>, numberText: real -> string): (es: seq<string>)
    ensures |es| <= |ms|
  {
    if ms == [] then []
    else
      var last := ms[|ms| - 1];
      Entries(ms[..|ms| - 1], numberText) + (if IsObjectType(last.value) then [] else [Entry(last, numberText)])
  }

  /** Lines joined by a newline, with none after the last. */
  function JoinLines(ls: seq<string>): string {
    if ls == [] then ""
    else if |ls| == 1 then ls[0]
    else JoinLines(ls[..|ls| - 1]) + "\n" + ls[|ls| - 1]
  }

  /** Lines each followed by a newline. */
  function Terminated(ls: seq<string>): (s: string)
    ensures ls != [] ==> s != "" && s[|s| - 1] == '\n'
  {
    if ls == [] then "" else Terminated(ls[..|ls| - 1]) + ls[|ls| - 1] + "\n"
  }

  lemma {:induction false} AccumulateIsTerminated(ms: seq<Member>, numberText: real -> string)
    ensures Accumulate(ms, numberText) == Terminated(Entries(ms, numberText))
  {
    if ms != [] {
      var init := ms[..|ms| - 1];
      var last := ms[|ms| - 1];
      AccumulateIsTerminated(init, numberText);
      var es := Entries(init, numberText);
      if IsObjectType(last.value) {
        assert Entries(ms, numberText) == es;
        assert Accumulate(ms, numberText) == Accumulate(init, numberText);
      } else {
        var e := Entry(last, numberText);
        assert Entries(ms, numberText) == es + [e];
        TerminatedSnoc(es, e);
        assert Accumulate(ms, numberText) == Accumulate(init, numberText) + (e + "\n");
      }
    }
  }

  lemma {:induction false} TerminatedSnoc(ls: seq<string>, x: string)
    ensures Terminated(ls + [x]) == Terminated(ls) + x + "\n"
  {
    assert (ls + [x])[..|ls|] == ls;
  }

  /** Dropping the final newline of newline-terminated lines joins them. */
  lemma {:induction false} DropLastJoins(ls: seq<string>)
    ensures DropLast(Terminated(ls)) == JoinLines(ls)
  {
    if ls != [] {
      var init := ls[..|ls| - 1];
      var x := ls[|ls| - 1];
      var t := Terminated(init);
      assert Terminated(ls) == t + x + "\n";
      assert DropLast(t + x + "\n") == t + x;
      if init == [] {
        assert |ls| == 1;
      } else {
        DropLastJoins(init);
        assert t == DropLast(t) + "\n";
      }
    }
  }

  /** The loop over members followed by the `substr` is a newline join of the entries. */
  lemma {:induction false} ListingIsJoin(ms: seq<Member>, numberText: real -> string)
    ensures DropLast(Accumulate(ms, numberText)) == JoinLines(Entries(ms, numberText))
  {
    AccumulateIsTerminated(ms, numberText);
    DropLastJoins(Entries(ms, numberText));
  }

  /**
    The members a description lists: follow object-typed `tags` down to
    the first object without one; a falsy value lists nothing.
   */
  function DescribedMembers(props: Value): seq<Member> {
    if !Truthy(props) then []
    else match props
      case Obj(ms) =>
        var t := Find(ms, "tags");
        if t.Some? && IsObjectType(ms[t.value].value) then DescribedMembers(ms[t.value].value)
        else ms
      case _ => Enumerate(props)
  }

  /* ---------------------------------------------------------------------
     Coordinate times
     --------------------------------------------------------------------- */

  /**
    `get_feature_coord_times`: `properties.times || properties.coordTimes || null`,
    and null without properties.
   */
  function DefaultCoordTimes(props: Value): (r: Value)
    ensures Truthy(r) <==> Present(Property(props, "times")) || Present(Property(props, "coordTimes"))
    ensures Present(Property(props, "times")) ==> r == Property(props, "times").value
    ensures !Present(Property(props, "times")) && Present(Property(props, "coordTimes")) ==>
              r == Property(props, "coordTimes").value
    ensures !Truthy(r) ==> r == Null
  {
    if !Truthy(props) then Null
    else if Present(Property(props, "times")) then Property(props, "times").value
    else if Present(Property(props, "coordTimes")) then Property(props, "coordTimes").value
    else Null
  }

  /** The string-key override: `feature.properties[key]`, undefined read as null. */
  function KeyCoordTimes(props: Value, key: string): (r: Value)
    requires props.Obj?
    ensures Get(props.members, key).Some? ==> r == Get(props.members, key).value
    ensures Get(props.members, key).None? ==> r == Null
  {
    match Get(props.members, key)
    case Some(v) => v
    case None => Null
  }
}

=== FILE: geojson.dfy ===
/**
  GeoJSON input as RFC 7946 describes it: the seven geometry types of
  sections 3.1.2 to 3.1.8, features (section 3.2) and feature collections
  (section 3.3). Coordinates are kept as opaque JSON values, since the
  converter copies them without arithmetic.
 */
module GeoJson {
  import opened Json

  /** A position (section 3.1.1 of RFC 7946): longitude, latitude, optional elevation. */
  type Position = seq<Value>

  datatype Geometry =
    | Point(coordinates: Position)
    | MultiPoint(points: seq<Position>)
    | LineString(line: seq<Position>)
    | MultiLineString(lines: seq<seq<Position>>)
    | Polygon(rings: seq<seq<Position>>)
    | MultiPolygon(polygons: seq<seq<seq<Position>>>)
    | GeometryCollection(geometries: seq<Geometry>)
      /** Any `type` string the converter has no case for. */
    | Unsupported(typeName: string)

  datatype Feature = Feature(properties: Value, geometry: Geometry)

  /** The three shapes of input `togpx` accepts. */
  datatype GeoJson =
    | FeatureCollection(features: seq<Feature>)
    | SingleFeature(feature: Feature)
    | BareGeometry(geometry: Geometry)

  const KnownTypes: set<string> := {
    "Point", "MultiPoint", "LineString", "MultiLineString",
    "Polygon", "MultiPolygon", "GeometryCollection"
  }

  predicate ValidPosition(p: Position) {
    |p| >= 2
  }

  predicate ValidPositions(ps: seq<Position>) {
    forall i :: 0 <= i < |ps| ==> ValidPosition(ps[i])
  }

  predicate ValidLines(ls: seq<seq<Position>>) {
    forall i :: 0 <= i < |ls| ==> ValidPositions(ls[i])
  }

  /** Every position has at least longitude and latitude; ring closure is not demanded. */
  predicate ValidGeometry(g: Geometry) {
    match g
    case Point(c) => ValidPosition(c)
    case MultiPoint(cs) => ValidPositions(cs)
    case LineString(cs) => ValidPositions(cs)
    case MultiLineString(ls) => ValidLines(ls)
    case Polygon(rs) => ValidLines(rs)
    case MultiPolygon(ps) => forall i :: 0 <= i < |ps| ==> ValidLines(ps[i])
    case GeometryCollection(gs) => forall i :: 0 <= i < |gs| ==> ValidGeometry(gs[i])
    case Unsupported(t) => t !in KnownTypes
  }

  /**
    Properties are an object or null (section 3.2 of RFC 7946); as a
    JavaScript object, an object has each key at most once.
   */
  predicate ValidFeature(f: Feature) {
    && (f.properties.Obj? || f.properties.Null?)
    && (f.properties.Obj? ==> DistinctKeys(f.properties.members))
    && ValidGeometry(f.geometry)
  }

  predicate ValidRoot(root: GeoJson) {
    match root
    case FeatureCollection(fs) => forall i :: 0 <= i < |fs| ==> ValidFeature(fs[i])
    case SingleFeature(f) => ValidFeature(f)
    case BareGeometry(g) => ValidGeometry(g)
  }

  /** The input normalised to a list of features, in input order. */
  function Features(root: GeoJson): (fs: seq<Feature>)
    ensures ValidRoot(root) ==> forall i :: 0 <= i < |fs| ==> ValidFeature(fs[i])
    ensures root.FeatureCollection? ==> fs == root.features
    ensures root.SingleFeature? ==> fs == [root.feature]
    ensures root.BareGeometry? ==> |fs| == 1 && fs[0].geometry == root.geometry && fs[0].properties == Obj([])
  {
    match root
    case FeatureCollection(fs) => fs
    case SingleFeature(f) => [f]
    case BareGeometry(g) => [Feature(Obj([]), g)]
  }

  /** Concatenation of a list of lists, outer order first. */
  function Flatten<T>(xss: seq<seq<T>>): seq<T> {
    if xss == [] then [] else xss[0] + Flatten(xss[1..])
  }

  lemma {:induction false} FlattenAppend<T>(a: seq<seq<T>>, b: seq<seq<T>>)
    ensures Flatten(a + b) == Flatten(a) + Flatten(b)
  {
    if a == [] {
      assert a + b == b;
    } else {
      assert (a + b)[1..] == a[1..] + b;
      FlattenAppend(a[1..], b);
    }
  }

  /**
    Element `r` of list `p` sits in the flattened list right after all
    elements of the lists before it: order is outer first, then inner.
   */
  lemma {:induction false} FlattenIndex<T>(xss: seq<seq<T>>, p: nat, r: nat)
    requires p < |xss| && r < |xss[p]|
    ensures |Flatten(xss[..p])| + r < |Flatten(xss)|
    ensures Flatten(xss)[|Flatten(xss[..p])| + r] == xss[p][r]
  {
    assert xss == xss[..p] + [xss[p]] + xss[p + 1..];
    FlattenAppend(xss[..p] + [xss[p]], xss[p + 1..]);
    FlattenAppend(xss[..p], [xss[p]]);
    assert [xss[p]][1..] == [];
    assert Flatten([xss[p]]) == xss[p] + Flatten([]);
  }
}

=== FILE: gpx.dfy ===
/**
  The GPX 1.1 records the converter produces (the `wptType`, `trkType` and
  `trksegType` shapes of the Topografix GPX 1.1 schema) and the JavaScript
  object tree they are written as, where keys starting with `@` are XML
  attributes. Member order is the order in which the converter assigns the
  keys.
 */
module Gpx {
  import opened Json

  datatype Waypoint = Waypoint(lat: Value, lon: Value, name: Value, desc: Value, ele: Option<Value>, link: Option<Value>)

  datatype TrackPoint = TrackPoint(lat: Value, lon: Value, ele: Option<Value>, time: Option<Value>)

  datatype TrackSegment = TrackSegment(trkpt: seq<TrackPoint>)

  datatype Track = Track(name: Value, desc: Value, link: Option<Value>, trkseg: seq<TrackSegment>)

  /** The `gpx` root: `creator` is absent when falsy; `metadata` stays null when none is given. */
  datatype Document = Document(creator: Option<Value>, metadata: Value, wpt: seq<Waypoint>, trk: seq<Track>)

  const GpxNamespace := "http://www.topografix.com/GPX/1/1"
  const XsiNamespace := "http://www.w3.org/2001/XMLSchema-instance"
  const SchemaLocation := "http://www.topografix.com/GPX/1/1 http://www.topografix.com/GPX/1/1/gpx.xsd"
  const GpxVersion := "1.1"

  /** A member that is only assigned when the value is defined. */
  function Optional(key: string, o: Option<Value>): seq<Member> {
    if o.Some? then [Member(key, o.value)] else []
  }

  /** `{ "@href": href }` */
  function LinkTree(href: Value): Value {
    Obj([Member("@href", href)])
  }

  /** `add_feature_link`: a `link` member when a link is given. */
  function LinkMember(link: Option<Value>): seq<Member> {
    if link.Some? then [Member("link", LinkTree(link.value))] else []
  }

  /**
    The keys are distinct, none is `$`, and exactly the first two, `@lat`
    and `@lon`, are attributes.
   */
  function WaypointTree(w: Waypoint): (t: Value)
    ensures t.Obj? && DistinctKeys(t.members)
    ensures forall i :: 0 <= i < |t.members| ==>
              && t.members[i].key != "$" && |t.members[i].key| > 0
              && (t.members[i].key[0] == '@' <==> i < 2)
  {
    Obj([Member("@lat", w.lat), Member("@lon", w.lon), Member("name", w.name), Member("desc", w.desc)]
        + Optional("ele", w.ele)
        + LinkMember(w.link))
  }

  /** As for a waypoint: distinct keys, no `$`, and attributes exactly at the first two places. */
  function TrackPointTree(p: TrackPoint): (t: Value)
    ensures t.Obj? && DistinctKeys(t.members)
    ensures forall i :: 0 <= i < |t.members| ==>
              && t.members[i].key != "$" && |t.members[i].key| > 0
              && (t.members[i].key[0] == '@' <==> i < 2)
  {
    Obj([Member("@lat", p.lat), Member("@lon", p.lon)] + Optional("ele", p.ele) + Optional("time", p.time))
  }

  function PointList(ps: seq<TrackPoint>): Value {
    Arr(seq(|ps|, i requires 0 <= i < |ps| => TrackPointTree(ps[i])))
  }

  function SegmentTree(s: TrackSegment): Value {
    Obj([Member("trkpt", PointList(s.trkpt))])
  }

  function SegmentList(ss: seq<TrackSegment>): Value {
    Arr(seq(|ss|, i requires 0 <= i < |ss| => SegmentTree(ss[i])))
  }

  /** Distinct keys, none of them `$` or an attribute. */
  function TrackTree(t: Track): (r: Value)
    ensures r.Obj? && DistinctKeys(r.members)
    ensures forall i :: 0 <= i < |r.members| ==>
              && r.members[i].key != "$" && |r.members[i].key| > 0 && r.members[i].key[0] != '@'
  {
    Obj([Member("name", t.name), Member("desc", t.desc)]
        + LinkMember(t.link)
        + [Member("trkseg", SegmentList(t.trkseg))])
  }

  function WaypointList(ws: seq<Waypoint>): Value {
    Arr(seq(|ws|, i requires 0 <= i < |ws| => WaypointTree(ws[i])))
  }

  function TrackList(ts: seq<Track>): Value {
    Arr(seq(|ts|, i requires 0 <= i < |ts| => TrackTree(ts[i])))
  }

  /** The root object; `@creator` is assigned after the literal, so it comes last. */
  function DocumentTree(d: Document): (t: Value)
    ensures t.Obj? && DistinctKeys(t.members)
    ensures forall i :: 0 <= i < |t.members| ==>
              && t.members[i].key != "$" && |t.members[i].key| > 0
              && (t.members[i].key[0] == '@' <==> i < 4 || i == 7)
  {
    Obj([Member("@xmlns", Str(GpxNamespace)),
         Member("@xmlns:xsi", Str(XsiNamespace)),
         Member("@xsi:schemaLocation", Str(SchemaLocation)),
         Member("@version", Str(GpxVersion)),
         Member("metadata", d.metadata),
         Member("wpt", WaypointList(d.wpt)),
         Member("trk", TrackList(d.trk))]
        + Optional("@creator", d.creator))
  }
}

=== FILE: json.dfy ===
/**
  The JavaScript values the converter reads and builds: GeoJSON input,
  feature properties, option values and the intermediate GPX tree.
  Objects are ordered association lists in insertion order, which is the
  order a `for ... in` loop visits string keys in.
 */
module Json {

  /** `None` stands for JavaScript's `undefined` (a missing property). */
  datatype Option<+T> = None | Some(value: T)

  datatype Value =
    | Null
    | Bool(b: bool)
    | Num(n: real)
    | Str(s: string)
    | Arr(elems: seq<Value>)
    | Obj(members: seq<Member>)

  datatype Member = Member(key: string, value: Value)

  /** JavaScript truthiness; JSON has no NaN, so a number is falsy only at zero. */
  predicate Truthy(v: Value) {
    match v
    case Null => false
    case Bool(b) => b
    case Num(n) => n != 0.0
    case Str(s) => s != ""
    case Arr(_) => true
    case Obj(_) => true
  }

  /** Truthiness of a property read: an undefined property is falsy. */
  predicate Present(o: Option<Value>) {
    o.Some? && Truthy(o.value)
  }

  /** `typeof v === "object"`, which holds for null and for arrays as well. */
  predicate IsObjectType(v: Value) {
    v.Null? || v.Arr? || v.Obj?
  }

  /** Position of the first member named `k`. */
  function Find(ms: seq<Member>, k: string): (r: Option<nat>)
    ensures r.Some? ==> r.value < |ms| && ms[r.value].key == k
    ensures r.Some? ==> forall j :: 0 <= j < r.value ==> ms[j].key != k
    ensures r.None? <==> forall j :: 0 <= j < |ms| ==> ms[j].key != k
  {
    if ms == [] then None
    else if ms[0].key == k then Some(0)
    else match Find(ms[1..], k)
      case None => None
      case Some(i) => Some(i + 1)
  }

  /** The first index holding `k` is what `Find` returns. */
  lemma FindFirst(ms: seq<Member>, k: string, j: nat)
    requires j < |ms| && ms[j].key == k
    requires forall i :: 0 <= i < j ==> ms[i].key != k
    ensures Find(ms, k) == Some(j)
  {
  }

  /** Two member lists with `k` at the same positions agree on where `k` is. */
  lemma FindSamePositions(a: seq<Member>, b: seq<Member>, k: string)
    requires |a| == |b|
    requires forall i :: 0 <= i < |a| ==> (a[i].key == k <==> b[i].key == k)
    ensures Find(a, k) == Find(b, k)
  {
    match Find(a, k)
    case None =>
    case Some(j) => FindFirst(b, k, j);
  }

  /** Appending a member keeps the position of every key already present. */
  lemma FindSnoc(a: seq<Member>, m: Member, k: string)
    ensures Find(a, k).Some? ==> Find(a + [m], k) == Find(a, k)
    ensures Find(a, k).None? && m.key == k ==> Find(a + [m], k) == Some(|a|)
    ensures Find(a, k).None? && m.key != k ==> Find(a + [m], k).None?
  {
    var b := a + [m];
    assert forall i :: 0 <= i < |a| ==> b[i] == a[i];
    match Find(a, k)
    case Some(j) => FindFirst(b, k, j);
    case None =>
      if m.key == k {
        FindFirst(b, k, |a|);
      }
  }

  /** `obj[k]` on an object given by its members. */
  function Get(ms: seq<Member>, k: string): Option<Value> {
    match Find(ms, k)
    case None => None
    case Some(i) => Some(ms[i].value)
  }

  /** `v.k` for a named (non-index) property: only objects carry named properties here. */
  function Property(v: Value, k: string): Option<Value> {
    if v.Obj? then Get(v.members, k) else None
  }

  function Digit(d: nat): char
    requires d < 10
  {
    "0123456789"[d]
  }

  /** The decimal property name JavaScript uses for array and string index `n`. */
  function IndexKey(n: nat): (r: string)
    ensures |r| > 0
    ensures forall c :: c in r ==> '0' <= c <= '9'
  {
    if n < 10 then [Digit(n)] else IndexKey(n / 10) + [Digit(n % 10)]
  }

  /** The key/value pairs a `for (k in v)` loop visits, with `v[k]` for each. */
  function Enumerate(v: Value): (r: seq<Member>)
    ensures v.Obj? ==> r == v.members
    ensures v.Arr? ==> |r| == |v.elems| && forall i :: 0 <= i < |r| ==> r[i] == Member(IndexKey(i), v.elems[i])
    ensures v.Str? ==> |r| == |v.s| && forall i :: 0 <= i < |r| ==> r[i] == Member(IndexKey(i), Str([v.s[i]]))
    ensures !v.Obj? && !v.Arr? && !v.Str? ==> r == []
  {
    match v
    case Obj(ms) => ms
    case Arr(a) => seq(|a|, i requires 0 <= i < |a| => Member(IndexKey(i), a[i]))
    case Str(s) => seq(|s|, i requires 0 <= i < |s| => Member(IndexKey(i), Str([s[i]])))
    case _ => []
  }

  /** `v[i]` for a numeric index. */
  function At(v: Value, i: nat): Option<Value> {
    match v
    case Arr(a) => if i < |a| then Some(a[i]) else None
    case Str(s) => if i < |s| then Some(Str([s[i]])) else None
    case Obj(ms) => Get(ms, IndexKey(i))
    case _ => None
  }

  predicate DistinctKeys(ms: seq<Member>) {
    forall i, j :: 0 <= i < j < |ms| ==> ms[i].key != ms[j].key
  }
}

=== FILE: mapper.dfy ===
/**
  The geometry dispatch of `togpx` (`mapFeature`): every feature adds
  waypoints or one track to the document, a geometry collection adds
  what its children add, and an unknown type adds nothing.
 */
module Mapper {
  import opened Json
  import opened GeoJson
  import opened Gpx
  import Extractors

  /* ---------------------------------------------------------------------
     Options (after the merge with the defaults)
     --------------------------------------------------------------------- */

  datatype TitleOption = DefaultTitle | CustomTitle(titleFn: Value -> Value)

  /**
    The default description needs the host's Number-to-String conversion,
    which the model leaves as a parameter.
   */
  datatype DescriptionOption =
    | DefaultDescription(numberText: real -> string)
    | CustomDescription(descriptionFn: Value -> Value)

  /** A string option is the property-name override; a function receives the feature. */
  datatype TimesOption = DefaultTimes | TimesKey(key: string) | CustomTimes(timesFn: Feature -> Value)

  datatype Options = Options(
    creator: Option<Value>,
    metadata: Option<Value>,
    featureTitle: TitleOption,
    featureDescription: DescriptionOption,
    featureLink: Option<Value -> Value>,
    featureCoordTimes: TimesOption)

  /** The defaults `togpx` merges caller options over. */
  function DefaultOptions(numberText: real -> string): Options {
    Options(Some(Str("togpx")), None, DefaultTitle, DefaultDescription(numberText), None, DefaultTimes)
  }

  function FeatureTitle(opts: Options, props: Value): Value {
    match opts.featureTitle
    case DefaultTitle => Extractors.Title(props)
    case CustomTitle(fn) => fn(props)
  }

  function FeatureDescription(opts: Options, props: Value): Value {
    match opts.featureDescription
    case DefaultDescription(numberText) => Str(Extractors.Description(props, numberText))
    case CustomDescription(fn) => fn(props)
  }

  /** `add_feature_link`: the href, when a link function is configured. */
  function FeatureLink(opts: Options, props: Value): (r: Option<Value>)
    ensures r.Some? <==> opts.featureLink.Some?
    ensures r.Some? ==> r.value == opts.featureLink.value(props)
  {
    match opts.featureLink
    case Some(fn) => Some(fn(props))
    case None => None
  }

  /** Whether the geometry reaches a line or polygon branch, the only ones that read times. */
  predicate HasTrack(g: Geometry) {
    match g
    case LineString(_) => true
    case MultiLineString(_) => true
    case Polygon(_) => true
    case MultiPolygon(_) => true
    case GeometryCollection(gs) => exists i :: 0 <= i < |gs| && HasTrack(gs[i])
    case _ => false
  }

  /**
    The string-key override reads `feature.properties[key]`, which throws
    on null properties; that only happens when a track branch is reached.
   */
  predicate TimesReadable(opts: Options, f: Feature) {
    opts.featureCoordTimes.TimesKey? && HasTrack(f.geometry) ==> f.properties.Obj?
  }

  predicate Mappable(opts: Options, f: Feature) {
    ValidFeature(f) && TimesReadable(opts, f)
  }

  function CoordTimes(opts: Options, f: Feature): Value
    requires opts.featureCoordTimes.TimesKey? ==> f.properties.Obj?
  {
    match opts.featureCoordTimes
    case DefaultTimes => Extractors.DefaultCoordTimes(f.properties)
    case TimesKey(key) => Extractors.KeyCoordTimes(f.properties, key)
    case CustomTimes(fn) => fn(f)
  }

  /* ---------------------------------------------------------------------
     Points and tracks
     --------------------------------------------------------------------- */

  /** A coordinate's elevation: `c[2]` when it is defined. */
  function Elevation(c: Position): Option<Value> {
    if |c| >= 3 then Some(c[2]) else None
  }

  /** `times && times[i]`: the time of the point at index `i` of its line or ring. */
  function TimeAt(times: Value, i: nat): Option<Value> {
    if Truthy(times) && Present(At(times, i)) then At(times, i) else None
  }

  function MakeWaypoint(opts: Options, props: Value, c: Position): Waypoint
    requires ValidPosition(c)
  {
    Waypoint(c[1], c[0], FeatureTitle(opts, props), FeatureDescription(opts, props), Elevation(c), FeatureLink(opts, props))
  }

  function Waypoints(opts: Options, props: Value, cs: seq<Position>): (ws: seq<Waypoint>)
    requires ValidPositions(cs)
  {
    seq(|cs|, k requires 0 <= k < |cs| => MakeWaypoint(opts, props, cs[k]))
  }

  function MakeTrackPoint(times: Value, c: Position, i: nat): TrackPoint
    requires ValidPosition(c)
  {
    TrackPoint(c[1], c[0], Elevation(c), TimeAt(times, i))
  }

  /** One segment per line or ring; the time index restarts at 0 for each. */
  function MakeSegment(times: Value, ring: seq<Position>): TrackSegment
    requires ValidPositions(ring)
  {
    TrackSegment(seq(|ring|, k requires 0 <= k < |ring| => MakeTrackPoint(times, ring[k], k)))
  }

  function MakeTrack(opts: Options, f: Feature, rings: seq<seq<Position>>): Track
    requires ValidLines(rings)
    requires opts.featureCoordTimes.TimesKey? ==> f.properties.Obj?
  {
    var times := CoordTimes(opts, f);
    Track(FeatureTitle(opts, f.properties), FeatureDescription(opts, f.properties), FeatureLink(opts, f.properties),
          seq(|rings|, j requires 0 <= j < |rings| => MakeSegment(times, rings[j])))
  }

  /** The lines or rings a track geometry is drawn from, polygon-then-ring for a MultiPolygon. */
  function Rings(g: Geometry): (rings: seq<seq<Position>>)
    requires g.LineString? || g.MultiLineString? || g.Polygon? || g.MultiPolygon?
    ensures g.LineString? ==> rings == [g.line]
    ensures g.MultiLineString? ==> rings == g.lines
    ensures g.Polygon? ==> rings == g.rings
    ensures g.MultiPolygon? ==> rings == Flatten(g.polygons)
    ensures ValidGeometry(g) ==> ValidLines(rings)
  {
    match g
    case LineString(cs) => [cs]
    case MultiLineString(ls) => ls
    case Polygon(rs) => rs
    case MultiPolygon(ps) => FlattenValid(ps); Flatten(ps)
  }

  lemma {:induction false} FlattenValid(ps: seq<seq<seq<Position>>>)
    ensures (forall i :: 0 <= i < |ps| ==> ValidLines(ps[i])) ==> ValidLines(Flatten(ps))
  {
    if ps != [] {
      FlattenValid(ps[1..]);
      assert forall i :: 0 <= i < |ps[1..]| ==> ps[1..][i] == ps[i + 1];
    }
  }

  /* ---------------------------------------------------------------------
     Dispatch
     --------------------------------------------------------------------- */

  /** What one feature adds to the document's `wpt` and `trk` lists. */
  datatype Output = Output(wpt: seq<Waypoint>, trk: seq<Track>)

  const NoOutput := Output([], [])

  /** The outputs of several features, appended in order. */
  function Concat(outs: seq<Output>): (r: Output)
    ensures |r.wpt| == WptTotal(outs) && |r.trk| == TrkTotal(outs)
  {
    if outs == [] then NoOutput
    else
      var rest := Concat(outs[1..]);
      Output(outs[0].wpt + rest.wpt, outs[0].trk + rest.trk)
  }

  /** The `wpt` and `trk` lists of several outputs are their lists laid end to end, in order. */
  lemma {:induction false} ConcatIsFlatten(outs: seq<Output>)
    ensures Concat(outs).wpt == Flatten(seq(|outs|, i requires 0 <= i < |outs| => outs[i].wpt))
    ensures Concat(outs).trk == Flatten(seq(|outs|, i requires 0 <= i < |outs| => outs[i].trk))
  {
    if outs != [] {
      ConcatIsFlatten(outs[1..]);
      var ws := seq(|outs|, i requires 0 <= i < |outs| => outs[i].wpt);
      var ts := seq(|outs|, i requires 0 <= i < |outs| => outs[i].trk);
      assert ws[1..] == seq(|outs[1..]|, i requires 0 <= i < |outs[1..]| => outs[1..][i].wpt);
      assert ts[1..] == seq(|outs[1..]|, i requires 0 <= i < |outs[1..]| => outs[1..][i].trk);
    }
  }

  function WptTotal(outs: seq<Output>): nat {
    if outs == [] then 0 else |outs[0].wpt| + WptTotal(outs[1..])
  }

  function TrkTotal(outs: seq<Output>): nat {
    if outs == [] then 0 else |outs[0].trk| + TrkTotal(outs[1..])
  }

  /**
    `mapFeature`: a Point adds one waypoint, a MultiPoint one per
    coordinate, a line or polygon geometry one track, and an unknown type
    nothing.
   */
  function MapFeature(opts: Options, f: Feature): (r: Output)
    requires Mappable(opts, f)
    ensures f.geometry.Point? ==> |r.wpt| == 1 && r.trk == []
    ensures f.geometry.MultiPoint? ==> |r.wpt| == |f.geometry.points| && r.trk == []
    ensures f.geometry.LineString? || f.geometry.MultiLineString? || f.geometry.Polygon? || f.geometry.MultiPolygon? ==>
              r.wpt == [] && |r.trk| == 1
    ensures f.geometry.Unsupported? ==> r == NoOutput
    decreases f.geometry
  {
    match f.geometry
    case Point(c) => Output(Waypoints(opts, f.properties, [c]), [])
    case MultiPoint(cs) => Output(Waypoints(opts, f.properties, cs), [])
    case LineString(_) =>
      Output([], [MakeTrack(opts, f, Rings(f.geometry))])
    case MultiLineString(_) =>
      Output([], [MakeTrack(opts, f, Rings(f.geometry))])
    case Polygon(_) =>
      Output([], [MakeTrack(opts, f, Rings(f.geometry))])
    case MultiPolygon(_) =>
      Output([], [MakeTrack(opts, f, Rings(f.geometry))])
    case GeometryCollection(gs) =>
      Concat(seq(|gs|, i requires 0 <= i < |gs| => MapFeature(opts, Feature(f.properties, gs[i]))))
    case Unsupported(_) => NoOutput
  }

  /** `features.forEach(mapFeature)`: each feature's waypoints and tracks, laid end to end in feature order. */
  function MapFeatures(opts: Options, fs: seq<Feature>): (r: Output)
    requires forall i :: 0 <= i < |fs| ==> Mappable(opts, fs[i])
    ensures r.wpt == Flatten(seq(|fs|, i requires 0 <= i < |fs| => MapFeature(opts, fs[i]).wpt))
    ensures r.trk == Flatten(seq(|fs|, i requires 0 <= i < |fs| => MapFeature(opts, fs[i]).trk))
  {
    var outs := seq(|fs|, i requires 0 <= i < |fs| => MapFeature(opts, fs[i]));
    ConcatIsFlatten(outs);
    assert seq(|outs|, i requires 0 <= i < |outs| => outs[i].wpt)
        == seq(|fs|, i requires 0 <= i < |fs| => MapFeature(opts, fs[i]).wpt);
    assert seq(|outs|, i requires 0 <= i < |outs| => outs[i].trk)
        == seq(|fs|, i requires 0 <= i < |fs| => MapFeature(opts, fs[i]).trk);
    Concat(outs)
  }

  predicate RootMappable(opts: Options, root: GeoJson) {
    ValidRoot(root) && forall i :: 0 <= i < |Features(root)| ==> TimesReadable(opts, Features(root)[i])
  }

  /** The `gpx` tree before reshaping: root literal, optional creator and metadata, mapped features. */
  function Convert(opts: Options, root: GeoJson): (d: Document)
    requires RootMappable(opts, root)
    ensures d.creator.Some? <==> Present(opts.creator)
    ensures d.creator.Some? ==> d.creator == opts.creator
    ensures Present(opts.metadata) ==> d.metadata == opts.metadata.value
    ensures !Present(opts.metadata) ==> d.metadata == Null
  {
    var out := MapFeatures(opts, Features(root));
    Document(if Present(opts.creator) then opts.creator else None,
             if Present(opts.metadata) then opts.metadata.value else Null,
             out.wpt, out.trk)
  }
}

=== FILE: mapping_lemmas.dfy ===
/**
  What the geometry dispatch promises: counts, order, and which fields are
  present on every waypoint, track and track point.
 */
module MappingLemmas {
  import opened Json
  import opened GeoJson
  import opened Gpx
  import opened Mapper

  /* ---------------------------------------------------------------------
     Appending outputs
     --------------------------------------------------------------------- */

  function Append(a: Output, b: Output): Output {
    Output(a.wpt + b.wpt, a.trk + b.trk)
  }

  lemma {:induction false} ConcatAppend(xs: seq<Output>, ys: seq<Output>)
    ensures Concat(xs + ys) == Append(Concat(xs), Concat(ys))
  {
    if xs == [] {
      assert xs + ys == ys;
    } else {
      assert (xs + ys)[1..] == xs[1..] + ys;
      ConcatAppend(xs[1..], ys);
    }
  }

  /**
    Features are processed in input order: the output of `a + b` is the
    output of `a` followed by that of `b`.
   */
  lemma MapFeaturesAppend(opts: Options, a: seq<Feature>, b: seq<Feature>)
    requires forall i :: 0 <= i < |a| ==> Mappable(opts, a[i])
    requires forall i :: 0 <= i < |b| ==> Mappable(opts, b[i])
    ensures forall i :: 0 <= i < |a + b| ==> Mappable(opts, (a + b)[i])
    ensures MapFeatures(opts, a + b) == Append(MapFeatures(opts, a), MapFeatures(opts, b))
  {
    var ab := a + b;
    var xs := seq(|a|, i requires 0 <= i < |a| => MapFeature(opts, a[i]));
    var ys := seq(|b|, i requires 0 <= i < |b| => MapFeature(opts, b[i]));
    assert seq(|ab|, i requires 0 <= i < |ab| => MapFeature(opts, ab[i])) == xs + ys;
    ConcatAppend(xs, ys);
  }

  lemma UnsupportedAddsNothing(opts: Options, u: Feature)
    requires Mappable(opts, u) && u.geometry.Unsupported?
    ensures MapFeatures(opts, [u]) == NoOutput
  {
    var one := seq(1, i requires 0 <= i < 1 => MapFeature(opts, [u][i]));
    assert one == [NoOutput];
  }

  /** An unsupported feature adds nothing, and the features after it are still processed. */
  lemma UnsupportedSkipped(opts: Options, a: seq<Feature>, u: Feature, b: seq<Feature>)
    requires forall i :: 0 <= i < |a| ==> Mappable(opts, a[i])
    requires forall i :: 0 <= i < |b| ==> Mappable(opts, b[i])
    requires Mappable(opts, u) && u.geometry.Unsupported?
    ensures forall i :: 0 <= i < |a + [u] + b| ==> Mappable(opts, (a + [u] + b)[i])
    ensures MapFeatures(opts, a + [u] + b) == MapFeatures(opts, a + b)
  {
    MapFeaturesAppend(opts, a, [u]);
    MapFeaturesAppend(opts, a + [u], b);
    MapFeaturesAppend(opts, a, b);
    UnsupportedAddsNothing(opts, u);
    assert Append(MapFeatures(opts, a), NoOutput) == MapFeatures(opts, a);
  }

  /** The `features.forEach(mapFeature)` loop, pushing onto the two lists. */
  method MapAll(opts: Options, fs: seq<Feature>) returns (wpt: seq<Waypoint>, trk: seq<Track>)
    requires forall i :: 0 <= i < |fs| ==> Mappable(opts, fs[i])
    ensures Output(wpt, trk) == MapFeatures(opts, fs)
  {
    wpt, trk := [], [];
    for n := 0 to |fs|
      invariant Output(wpt, trk) == MapFeatures(opts, fs[..n])
    {
      var o := MapFeature(opts, fs[n]);
      assert fs[..n + 1] == fs[..n] + [fs[n]];
      MapFeaturesAppend(opts, fs[..n], [fs[n]]);
      MapFeaturesOne(opts, fs[n]);
      wpt := wpt + o.wpt;
      trk := trk + o.trk;
    }
    assert fs[..|fs|] == fs;
  }

  lemma {:induction false} MapFeaturesOne(opts: Options, f: Feature)
    requires Mappable(opts, f)
    ensures MapFeatures(opts, [f]) == MapFeature(opts, f)
  {
    var o := MapFeature(opts, f);
    var one := seq(1, i requires 0 <= i < 1 => MapFeature(opts, [f][i]));
    assert one == [o];
    assert Concat([o]) == Append(o, NoOutput);
  }

  /* ---------------------------------------------------------------------
     Waypoints
     --------------------------------------------------------------------- */

  function PointsOf(g: Geometry): seq<Position>
    requires g.Point? || g.MultiPoint?
  {
    if g.Point? then [g.coordinates] else g.points
  }

  /**
    A Point adds one waypoint and a MultiPoint one per coordinate, in
    coordinate order, and no track; each has `@lat` = c[1], `@lon` = c[0],
    `ele` exactly when c[2] is defined, and all share the feature's name,
    description and link.
   */
  lemma WaypointFeature(opts: Options, f: Feature)
    requires Mappable(opts, f) && (f.geometry.Point? || f.geometry.MultiPoint?)
    ensures var out := MapFeature(opts, f);
            var cs := PointsOf(f.geometry);
            && out.trk == []
            && |out.wpt| == |cs|
            && forall k :: 0 <= k < |cs| ==>
                 && out.wpt[k].lat == cs[k][1]
                 && out.wpt[k].lon == cs[k][0]
                 && (out.wpt[k].ele.Some? <==> |cs[k]| >= 3)
                 && (out.wpt[k].ele.Some? ==> out.wpt[k].ele.value == cs[k][2])
                 && out.wpt[k].name == FeatureTitle(opts, f.properties)
                 && out.wpt[k].desc == FeatureDescription(opts, f.properties)
                 && out.wpt[k].link == FeatureLink(opts, f.properties)
  {
  }

  /* ---------------------------------------------------------------------
     Tracks
     --------------------------------------------------------------------- */

  predicate IsTrackGeometry(g: Geometry) {
    g.LineString? || g.MultiLineString? || g.Polygon? || g.MultiPolygon?
  }

  /**
    A line or polygon geometry adds exactly one track and no waypoint. The
    track has one segment per line or ring and one point per coordinate,
    in order; `ele` is present exactly when c[2] is defined, and `time`
    exactly when the resolved times are truthy and so is their entry at
    the point's index within its own segment.
   */
  lemma {:induction false} TrackFeature(opts: Options, f: Feature)
    requires Mappable(opts, f) && IsTrackGeometry(f.geometry)
    ensures var out := MapFeature(opts, f);
            var rings := Rings(f.geometry);
            var times := CoordTimes(opts, f);
            && out.wpt == []
            && |out.trk| == 1
            && out.trk[0].name == FeatureTitle(opts, f.properties)
            && out.trk[0].desc == FeatureDescription(opts, f.properties)
            && out.trk[0].link == FeatureLink(opts, f.properties)
            && |out.trk[0].trkseg| == |rings|
            && (forall j :: 0 <= j < |rings| ==> |out.trk[0].trkseg[j].trkpt| == |rings[j]|)
            && forall j, k :: 0 <= j < |rings| && 0 <= k < |rings[j]| ==>
                 var p := out.trk[0].trkseg[j].trkpt[k];
                    && p.lat == rings[j][k][1]
                    && p.lon == rings[j][k][0]
                    && (p.ele.Some? <==> |rings[j][k]| >= 3)
                    && (p.ele.Some? ==> p.ele.value == rings[j][k][2])
                    && (p.time.Some? <==> Truthy(times) && Present(At(times, k)))
                    && (p.time.Some? ==> p.time == At(times, k))
  {
  }

  /**
    A MultiPolygon's segments are its polygons' rings flattened
    polygon-then-ring: ring `r` of polygon `p` is the segment after all
    rings of the polygons before it, and holds that ring's points, with
    the time index restarting at 0.
   */
  lemma MultiPolygonSegment(opts: Options, f: Feature, p: nat, r: nat)
    requires Mappable(opts, f) && f.geometry.MultiPolygon?
    requires p < |f.geometry.polygons| && r < |f.geometry.polygons[p]|
    ensures var segs := MapFeature(opts, f).trk[0].trkseg;
            var ring := f.geometry.polygons[p][r];
            var at := |Flatten(f.geometry.polygons[..p])| + r;
            && at < |segs|
            && |segs[at].trkpt| == |ring|
            && forall k :: 0 <= k < |ring| ==>
                 var q := segs[at].trkpt[k];
                 && q.lat == ring[k][1] && q.lon == ring[k][0]
                 && q.ele == Elevation(ring[k])
                 && q.time == TimeAt(CoordTimes(opts, f), k)
  {
    var ps := f.geometry.polygons;
    FlattenIndex(ps, p, r);
    var at := |Flatten(ps[..p])| + r;
    var times := CoordTimes(opts, f);
    TrackSegments(opts, f);
    assert MapFeature(opts, f).trk[0].trkseg[at] == MakeSegment(times, ps[p][r]);
    SegmentPoints(times, ps[p][r]);
  }

  /** A track geometry's one track has one segment per line or ring. */
  lemma {:induction false} TrackSegments(opts: Options, f: Feature)
    requires Mappable(opts, f) && IsTrackGeometry(f.geometry)
    ensures var rings := Rings(f.geometry);
            && |MapFeature(opts, f).trk| == 1
            && |MapFeature(opts, f).trk[0].trkseg| == |rings|
            && forall j :: 0 <= j < |rings| ==>
                 MapFeature(opts, f).trk[0].trkseg[j] == MakeSegment(CoordTimes(opts, f), rings[j])
  {
    assert MapFeature(opts, f).trk == [MakeTrack(opts, f, Rings(f.geometry))];
  }

  /** A segment has one point per position, in order, its time index counting from 0. */
  lemma {:induction false} SegmentPoints(times: Value, ring: seq<Position>)
    requires ValidPositions(ring)
    ensures var s := MakeSegment(times, ring);
            && |s.trkpt| == |ring|
            && forall k :: 0 <= k < |ring| ==>
                 && s.trkpt[k].lat == ring[k][1] && s.trkpt[k].lon == ring[k][0]
                 && s.trkpt[k].ele == Elevation(ring[k])
                 && s.trkpt[k].time == TimeAt(times, k)
  {
  }

  /* ---------------------------------------------------------------------
     Counts, and geometry collections
     --------------------------------------------------------------------- */

  function Sum(ns: seq<nat>): nat {
    if ns == [] then 0 else ns[0] + Sum(ns[1..])
  }

  /** Waypoints a geometry should yield: one per point coordinate, children summed. */
  function WaypointCount(g: Geometry): nat {
    match g
    case Point(_) => 1
    case MultiPoint(cs) => |cs|
    case GeometryCollection(gs) => Sum(seq(|gs|, i requires 0 <= i < |gs| => WaypointCount(gs[i])))
    case _ => 0
  }

  /** Tracks a geometry should yield: one per line or polygon geometry, children summed. */
  function TrackCount(g: Geometry): nat {
    match g
    case LineString(_) => 1
    case MultiLineString(_) => 1
    case Polygon(_) => 1
    case MultiPolygon(_) => 1
    case GeometryCollection(gs) => Sum(seq(|gs|, i requires 0 <= i < |gs| => TrackCount(gs[i])))
    case _ => 0
  }

  lemma {:induction false} TotalsAreSums(outs: seq<Output>, ws: seq<nat>, ts: seq<nat>)
    requires |ws| == |outs| && |ts| == |outs|
    requires forall i :: 0 <= i < |outs| ==> |outs[i].wpt| == ws[i] && |outs[i].trk| == ts[i]
    ensures WptTotal(outs) == Sum(ws) && TrkTotal(outs) == Sum(ts)
  {
    if outs != [] {
      TotalsAreSums(outs[1..], ws[1..], ts[1..]);
    }
  }

  /**
    A feature yields exactly as many waypoints and tracks as its geometry
    counts: a geometry collection's children add to the same flat lists
    (with the parent's properties), and an unsupported type adds nothing.
   */
  lemma {:induction false} FeatureCounts(opts: Options, f: Feature)
    requires Mappable(opts, f)
    ensures |MapFeature(opts, f).wpt| == WaypointCount(f.geometry)
    ensures |MapFeature(opts, f).trk| == TrackCount(f.geometry)
    decreases f.geometry
  {
    match f.geometry
    case GeometryCollection(gs) =>
      var children := seq(|gs|, i requires 0 <= i < |gs| => Feature(f.properties, gs[i]));
      forall i | 0 <= i < |gs|
        ensures Mappable(opts, children[i])
        ensures |MapFeature(opts, children[i]).wpt| == WaypointCount(gs[i])
        ensures |MapFeature(opts, children[i]).trk| == TrackCount(gs[i])
      {
        assert Mappable(opts, children[i]);
        FeatureCounts(opts, children[i]);
      }
      var outs := seq(|gs|, i requires 0 <= i < |gs| => MapFeature(opts, Feature(f.properties, gs[i])));
      TotalsAreSums(outs, seq(|gs|, i requires 0 <= i < |gs| => WaypointCount(gs[i])),
                    seq(|gs|, i requires 0 <= i < |gs| => TrackCount(gs[i])));
    case Point(_) =>
    case MultiPoint(_) =>
    case Unsupported(_) =>
    case _ =>
      TrackFeature(opts, f);
  }

  /** A geometry collection's output is its children's outputs, in child order, each with the parent's properties. */
  lemma CollectionFlattens(opts: Options, f: Feature)
    requires Mappable(opts, f) && f.geometry.GeometryCollection?
    ensures var gs := f.geometry.geometries;
            && (forall i :: 0 <= i < |gs| ==> Mappable(opts, Feature(f.properties, gs[i])))
            && MapFeature(opts, f) == MapFeatures(opts, seq(|gs|, i requires 0 <= i < |gs| => Feature(f.properties, gs[i])))
  {
    var gs := f.geometry.geometries;
    forall i | 0 <= i < |gs|
      ensures Mappable(opts, Feature(f.properties, gs[i]))
    {
      assert HasTrack(gs[i]) ==> HasTrack(f.geometry);
    }
    var children := seq(|gs|, i requires 0 <= i < |gs| => Feature(f.properties, gs[i]));
    assert seq(|children|, i requires 0 <= i < |children| => MapFeature(opts, children[i]))
        == seq(|gs|, i requires 0 <= i < |gs| => MapFeature(opts, Feature(f.properties, gs[i])));
  }
}

=== FILE: togpx.dfy ===
/**
  `togpx(geojson, options)` up to the object handed to the GPX writer:
  the features are mapped into the `gpx` tree, and `toGpxBuilderObject`
  reshapes that tree so that every `@` attribute sits in a `$` bag.
 */
module Togpx {
  import opened Json
  import opened GeoJson
  import opened Gpx
  import Mapper
  import Builder

  /**
    The object `togpx` passes to the GPX writer: the reshaped `gpx` tree,
    whose root holds the attribute bag, `metadata`, `wpt` and `trk`, in
    that order, and nothing else.
   */
  function ToGpx(opts: Mapper.Options, root: GeoJson): (r: Value)
    requires Mapper.RootMappable(opts, root)
    requires Builder.Safe(DocumentTree(Mapper.Convert(opts, root)))
    ensures r == DocumentObject(Mapper.Convert(opts, root))
    ensures r.Obj? && |r.members| == 4
    ensures r.members[0].key == "$" && r.members[1].key == "metadata"
    ensures r.members[2].key == "wpt" && r.members[3].key == "trk"
  {
    BuiltDocument(Mapper.Convert(opts, root));
    Builder.Build(DocumentTree(Mapper.Convert(opts, root)))
  }

  /**
    The creator option decides the bag: it holds the four fixed attributes
    in the literal's order, then `creator` exactly when the option is truthy.
   */
  lemma {:induction false} ToGpxCreator(opts: Mapper.Options, root: GeoJson)
    requires Mapper.RootMappable(opts, root)
    requires Builder.Safe(DocumentTree(Mapper.Convert(opts, root)))
    ensures var r := ToGpx(opts, root);
            && r.members[0].value.Obj?
            && var bag := r.members[0].value.members;
            && bag[..4] == RootAttributes
            && (Get(bag, "creator").Some? <==> Present(opts.creator))
            && (Present(opts.creator) ==> Builder.Safe(opts.creator.value)
                                            && Get(bag, "creator") == Some(Builder.Convert(opts.creator.value)))
  {
    var d := Mapper.Convert(opts, root);
    SafeDocument(d);
    RootBag(d.creator);
  }

  lemma {:induction false} RootBag(c: Option<Value>)
    requires c.Some? ==> Builder.Safe(c.value)
    ensures var bag := RootAttributes + BuiltOptional("creator", c);
            && bag[..4] == RootAttributes
            && (Get(bag, "creator").Some? <==> c.Some?)
            && (c.Some? ==> Get(bag, "creator") == Some(Builder.Convert(c.value)))
  {
    var bag := RootAttributes + BuiltOptional("creator", c);
    assert bag[..4] == RootAttributes;
    if c.Some? {
      FindFirst(bag, "creator", 4);
    } else {
      assert bag == RootAttributes;
    }
  }

  /**
    The metadata option decides `metadata`: the converted option when it is
    truthy, otherwise `{}`, the tree's `null` reshaped.
   */
  lemma {:induction false} ToGpxMetadata(opts: Mapper.Options, root: GeoJson)
    requires Mapper.RootMappable(opts, root)
    requires Builder.Safe(DocumentTree(Mapper.Convert(opts, root)))
    ensures var r := ToGpx(opts, root);
            && (Present(opts.metadata) ==> Builder.Safe(opts.metadata.value)
                                             && r.members[1].value == Builder.Convert(opts.metadata.value))
            && (!Present(opts.metadata) ==> r.members[1].value == Obj([]))
  {
    SafeDocument(Mapper.Convert(opts, root));
  }

  /** `wpt` and `trk` hold the builder objects of the mapped features' waypoints and tracks, in order. */
  lemma {:induction false} ToGpxFeatures(opts: Mapper.Options, root: GeoJson)
    requires Mapper.RootMappable(opts, root)
    requires Builder.Safe(DocumentTree(Mapper.Convert(opts, root)))
    ensures var d, out := Mapper.Convert(opts, root), Mapper.MapFeatures(opts, Features(root));
            && d.wpt == out.wpt && d.trk == out.trk
            && SafeDocumentParts(d)
            && var wpt, trk := ToGpx(opts, root).members[2].value, ToGpx(opts, root).members[3].value;
            && wpt.Arr? && |wpt.elems| == |d.wpt|
            && (forall i :: 0 <= i < |d.wpt| ==> wpt.elems[i] == WaypointObject(d.wpt[i]))
            && trk.Arr? && |trk.elems| == |d.trk|
            && (forall i :: 0 <= i < |d.trk| ==> trk.elems[i] == TrackObject(d.trk[i]))
  {
    DocumentLists(Mapper.Convert(opts, root));
  }

  /** The root object's `wpt` and `trk` are the document's waypoints and tracks, built one by one. */
  lemma {:induction false} DocumentLists(d: Document)
    requires Builder.Safe(DocumentTree(d))
    ensures SafeDocumentParts(d)
    ensures var wpt, trk := DocumentObject(d).members[2].value, DocumentObject(d).members[3].value;
            && wpt.Arr? && |wpt.elems| == |d.wpt|
            && (forall i :: 0 <= i < |d.wpt| ==> wpt.elems[i] == WaypointObject(d.wpt[i]))
            && trk.Arr? && |trk.elems| == |d.trk|
            && (forall i :: 0 <= i < |d.trk| ==> trk.elems[i] == TrackObject(d.trk[i]))
  {
    SafeDocument(d);
  }

  /** An optional member with its value converted. */
  function BuiltOptional(key: string, o: Option<Value>): seq<Member>
    requires o.Some? ==> Builder.Safe(o.value)
  {
    if o.Some? then [Member(key, Builder.Convert(o.value))] else []
  }

  lemma {:induction false} DistinctAppend(x: seq<Member>, y: seq<Member>)
    requires DistinctKeys(x) && DistinctKeys(y)
    requires forall i, j :: 0 <= i < |x| && 0 <= j < |y| ==> x[i].key != y[j].key
    ensures DistinctKeys(x + y)
  {
    var s := x + y;
    forall i, j | 0 <= i < j < |s|
      ensures s[i].key != s[j].key
    {
      if j < |x| {
      } else if i < |x| {
        assert s[j] == y[j - |x|];
      } else {
        assert s[i] == y[i - |x|] && s[j] == y[j - |x|];
      }
    }
  }

  /** `{ "@href": h }` becomes `{ $: { href: h } }`. */
  lemma {:induction false} BuiltLink(h: Value)
    requires Builder.Safe(LinkTree(h))
    ensures Builder.Safe(h)
    ensures Builder.Build(LinkTree(h)) == Obj([Member("$", Obj([Member("href", Builder.Convert(h))]))])
  {
    var a := [Member("@href", h)];
    assert Builder.Safe(a[0].value);
    var href := [Member("href", Builder.Convert(h))];
    assert a + [] + [] == a;
    Builder.BuildLayout(a, [], []);
    var ca := Builder.Converted(Obj(a));
    assert Builder.Attributes(ca) == href by {
      assert ca == [] + [Member("@href", Builder.Convert(h))];
      Builder.PlainSnoc([], Member("@href", Builder.Convert(h)));
    }
    assert Builder.Converted(Obj([])) == [];
    assert Builder.Attributes([]) == [];
    assert href + [] == href;
    assert [Member("$", Obj(href))] + [] == [Member("$", Obj(href))];
  }

  /** The key facts `toGpxBuilderObject` needs of an object it reshapes. */
  predicate PlainKeys(b: seq<Member>) {
    forall i :: 0 <= i < |b| ==> !Builder.IsAttribute(b[i].key) && b[i].key != "$"
  }

  lemma {:induction false} ConvertedOptional(key: string, o: Option<Value>)
    requires Builder.Safe(Obj(Optional(key, o)))
    ensures o.Some? ==> Builder.Safe(o.value)
    ensures Builder.Converted(Obj(Optional(key, o))) == BuiltOptional(key, o)
  {
    if o.Some? {
      assert Optional(key, o)[0].value == o.value;
    }
  }

  /** `{ $: { lat, lon } }`'s bag member. */
  function LatLonBagMember(lat: Value, lon: Value): Member
    requires Builder.Safe(lat) && Builder.Safe(lon)
  {
    Member("$", Obj([Member("lat", Builder.Convert(lat)), Member("lon", Builder.Convert(lon))]))
  }

  /**
    A point object, `@lat` and `@lon` first: both move into the bag and the
    other members follow, converted.
   */
  lemma {:induction false} BuiltLatLon(lat: Value, lon: Value, b: seq<Member>)
    requires PlainKeys(b) && DistinctKeys(b)
    requires Builder.Safe(Obj([Member("@lat", lat), Member("@lon", lon)] + b))
    ensures Builder.Safe(lat) && Builder.Safe(lon) && Builder.Safe(Obj(b))
    ensures Builder.Build(Obj([Member("@lat", lat), Member("@lon", lon)] + b))
            == Obj([LatLonBagMember(lat, lon)] + Builder.Converted(Obj(b)))
  {
    var a := [Member("@lat", lat), Member("@lon", lon)];
    Builder.SafeAppend(a, b);
    AttributesThenPlain(a, b);
    Builder.BuildAttributesFirst(a, b);
    LatLonConverted(lat, lon);
  }

  lemma {:induction false} LatLonConverted(lat: Value, lon: Value)
    requires Builder.Safe(Obj([Member("@lat", lat), Member("@lon", lon)]))
    ensures Builder.Safe(lat) && Builder.Safe(lon)
    ensures Builder.Attributes(Builder.Converted(Obj([Member("@lat", lat), Member("@lon", lon)])))
            == [Member("lat", Builder.Convert(lat)), Member("lon", Builder.Convert(lon))]
  {
    var a := [Member("@lat", lat), Member("@lon", lon)];
    assert Builder.Safe(a[0].value) && Builder.Safe(a[1].value);
    assert Builder.Converted(Obj(a)) == [Member("@lat", Builder.Convert(lat)), Member("@lon", Builder.Convert(lon))];
    LatLonBag(Builder.Convert(lat), Builder.Convert(lon));
  }

  /** Distinct attribute keys followed by distinct plain keys are distinct, and none is `$`. */
  lemma {:induction false} AttributesThenPlain(a: seq<Member>, b: seq<Member>)
    requires forall i :: 0 <= i < |a| ==> Builder.IsAttribute(a[i].key)
    requires DistinctKeys(a) && PlainKeys(b) && DistinctKeys(b)
    ensures DistinctKeys(a + b) && Builder.NoBagKey(a + b)
  {
    forall i, j | 0 <= i < |a| && 0 <= j < |b|
      ensures a[i].key != b[j].key
    {
      assert Builder.IsAttribute(a[i].key) && !Builder.IsAttribute(b[j].key);
    }
    DistinctAppend(a, b);
    forall i | 0 <= i < |a + b|
      ensures (a + b)[i].key != "$"
    {
      if i < |a| {
        assert Builder.IsAttribute(a[i].key);
      } else {
        assert (a + b)[i] == b[i - |a|];
      }
    }
  }

  lemma {:induction false} LatLonBag(lat: Value, lon: Value)
    ensures Builder.Attributes([Member("@lat", lat), Member("@lon", lon)])
            == [Member("lat", lat), Member("lon", lon)]
  {
    var x := Member("@lat", lat);
    var y := Member("@lon", lon);
    assert x.key[1..] == "lat" && y.key[1..] == "lon";
    assert Builder.Attributes([x]) == [Member("lat", lat)] by {
      Builder.PlainSnoc([], x);
      assert [] + [x] == [x];
    }
    Builder.PlainSnoc([x], y);
    assert [x] + [y] == [x, y];
  }

  /* ---------------------------------------------------------------------
     The builder object of each GPX record, stated directly
     --------------------------------------------------------------------- */

  /** A `link` member as the builder expects it: `{ $: { href } }`. */
  function BuiltLinkMember(link: Option<Value>): seq<Member>
    requires link.Some? ==> Builder.Safe(link.value)
  {
    if link.Some? then [Member("link", Obj([Member("$", Obj([Member("href", Builder.Convert(link.value))]))]))] else []
  }

  function PointObject(p: TrackPoint): Value
    requires Builder.Safe(TrackPointTree(p))
  {
    SafePoint(p);
    Obj([LatLonBagMember(p.lat, p.lon)] + PointChildren(p))
  }

  /** A builder track point's members after the bag: ele?, time?. */
  function PointChildren(p: TrackPoint): seq<Member>
    requires SafePointParts(p)
  {
    BuiltOptional("ele", p.ele) + BuiltOptional("time", p.time)
  }

  /** The values of a track point the builder converts are safe. */
  predicate SafePointParts(p: TrackPoint) {
    && Builder.Safe(p.lat) && Builder.Safe(p.lon)
    && (p.ele.Some? ==> Builder.Safe(p.ele.value))
    && (p.time.Some? ==> Builder.Safe(p.time.value))
  }

  lemma {:induction false} SafePoint(p: TrackPoint)
    requires Builder.Safe(TrackPointTree(p))
    ensures SafePointParts(p)
  {
    var ms := TrackPointTree(p).members;
    assert Builder.Safe(ms[0].value) && Builder.Safe(ms[1].value);
    if p.ele.Some? {
      assert ms[2].value == p.ele.value;
    }
    if p.time.Some? {
      assert ms[|ms| - 1].value == p.time.value;
    }
  }

  /** Two optional members under different plain keys. */
  lemma {:induction false} OptionalPair(k1: string, o1: Option<Value>, k2: string, o2: Option<Value>)
    requires k1 != k2 && k1 != "$" && k2 != "$" && !Builder.IsAttribute(k1) && !Builder.IsAttribute(k2)
    requires Builder.Safe(Obj(Optional(k1, o1) + Optional(k2, o2)))
    ensures var b := Optional(k1, o1) + Optional(k2, o2);
            PlainKeys(b) && DistinctKeys(b)
    ensures o1.Some? ==> Builder.Safe(o1.value)
    ensures o2.Some? ==> Builder.Safe(o2.value)
    ensures Builder.Converted(Obj(Optional(k1, o1) + Optional(k2, o2))) == BuiltOptional(k1, o1) + BuiltOptional(k2, o2)
  {
    OptionalPairKeys(k1, o1, k2, o2);
    Builder.ConvertedAppend(Optional(k1, o1), Optional(k2, o2));
    ConvertedOptional(k1, o1);
    ConvertedOptional(k2, o2);
  }

  lemma {:induction false} OptionalPairKeys(k1: string, o1: Option<Value>, k2: string, o2: Option<Value>)
    requires k1 != k2 && k1 != "$" && k2 != "$" && !Builder.IsAttribute(k1) && !Builder.IsAttribute(k2)
    ensures var b := Optional(k1, o1) + Optional(k2, o2);
            PlainKeys(b) && DistinctKeys(b)
  {
    var b := Optional(k1, o1) + Optional(k2, o2);
    assert forall i :: 0 <= i < |b| ==> b[i].key == k1 || b[i].key == k2;
    assert |b| == 2 ==> b[0].key == k1 && b[1].key == k2;
  }


  /** A track point becomes `{ $: { lat, lon }, ele?, time? }`. */
  lemma {:induction false} BuiltTrackPoint(p: TrackPoint)
    requires Builder.Safe(TrackPointTree(p))
    ensures Builder.Build(TrackPointTree(p)) == PointObject(p)
  {
    SafePoint(p);
    PointParts(p);
    BuiltLatLon(p.lat, p.lon, PointPlain(p));
  }

  /** A track point's members after `@lat` and `@lon`. */
  function PointPlain(p: TrackPoint): seq<Member> {
    Optional("ele", p.ele) + Optional("time", p.time)
  }

  lemma {:induction false} PointParts(p: TrackPoint)
    requires Builder.Safe(TrackPointTree(p))
    ensures SafePointParts(p)
    ensures var b := PointPlain(p);
            && TrackPointTree(p) == Obj([Member("@lat", p.lat), Member("@lon", p.lon)] + b)
            && PlainKeys(b) && DistinctKeys(b)
            && Builder.Converted(Obj(b)) == PointChildren(p)
  {
    SafePoint(p);
    var a, b := [Member("@lat", p.lat), Member("@lon", p.lon)], PointPlain(p);
    assert TrackPointTree(p).members == a + b;
    Builder.SafeAppend(a, b);
    OptionalPair("ele", p.ele, "time", p.time);
  }


  /** The values of a segment the builder converts are safe. */
  predicate SafeSegmentParts(s: TrackSegment) {
    forall i :: 0 <= i < |s.trkpt| ==> Builder.Safe(TrackPointTree(s.trkpt[i]))
  }

  lemma {:induction false} SafeSegment(s: TrackSegment)
    requires Builder.Safe(SegmentTree(s))
    ensures Builder.Safe(PointList(s.trkpt)) && SafeSegmentParts(s)
  {
    assert SegmentTree(s).members[0].value == PointList(s.trkpt);
    assert forall i :: 0 <= i < |s.trkpt| ==> PointList(s.trkpt).elems[i] == TrackPointTree(s.trkpt[i]);
  }

  function SegmentObject(s: TrackSegment): Value
    requires Builder.Safe(SegmentTree(s))
  {
    SafeSegment(s);
    Obj([Member("trkpt", PointObjects(s.trkpt))])
  }

  function PointObjects(ps: seq<TrackPoint>): Value
    requires forall i :: 0 <= i < |ps| ==> Builder.Safe(TrackPointTree(ps[i]))
  {
    Arr(seq(|ps|, i requires 0 <= i < |ps| => PointObject(ps[i])))
  }

  lemma {:induction false} PointsBuilt(ps: seq<TrackPoint>)
    requires forall i :: 0 <= i < |ps| ==> Builder.Safe(TrackPointTree(ps[i]))
    ensures Builder.Safe(PointList(ps))
    ensures Builder.Convert(PointList(ps)) == PointObjects(ps)
  {
    forall i | 0 <= i < |ps|
      ensures Builder.Build(TrackPointTree(ps[i])) == PointObject(ps[i])
    {
      BuiltTrackPoint(ps[i]);
    }
  }

  /** A segment becomes `{ trkpt: [...] }`, one builder point per point, in order. */
  lemma {:induction false} BuiltSegment(s: TrackSegment)
    requires Builder.Safe(SegmentTree(s))
    ensures Builder.Build(SegmentTree(s)) == SegmentObject(s)
  {
    SafeSegment(s);
    Builder.BuildPlain(SegmentTree(s).members);
    PointsBuilt(s.trkpt);
  }

  /** `o.link = { "@href": h }` comes out as `link: { $: { href: h } }`. */
  lemma {:induction false} ConvertedLink(link: Option<Value>)
    requires Builder.Safe(Obj(LinkMember(link)))
    ensures link.Some? ==> Builder.Safe(link.value)
    ensures Builder.Converted(Obj(LinkMember(link))) == BuiltLinkMember(link)
  {
    if link.Some? {
      var ms := LinkMember(link);
      assert ms[0].value == LinkTree(link.value);
      BuiltLink(link.value);
    }
  }

  /** The plain part of a waypoint or a track: name, desc, the optional ones, and what follows. */
  lemma {:induction false} NamedPart(name: Value, desc: Value, opt: seq<Member>, rest: seq<Member>)
    requires PlainKeys(opt + rest) && DistinctKeys(opt + rest)
    requires forall i :: 0 <= i < |opt + rest| ==> (opt + rest)[i].key != "name" && (opt + rest)[i].key != "desc"
    requires Builder.Safe(Obj([Member("name", name), Member("desc", desc)] + opt + rest))
    ensures var b := [Member("name", name), Member("desc", desc)] + opt + rest;
            PlainKeys(b) && DistinctKeys(b)
    ensures Builder.Safe(name) && Builder.Safe(desc) && Builder.Safe(Obj(opt)) && Builder.Safe(Obj(rest))
    ensures Builder.Converted(Obj([Member("name", name), Member("desc", desc)] + opt + rest))
            == [Member("name", Builder.Convert(name)), Member("desc", Builder.Convert(desc))]
               + Builder.Converted(Obj(opt)) + Builder.Converted(Obj(rest))
  {
    var nd := [Member("name", name), Member("desc", desc)];
    assert nd + opt + rest == nd + (opt + rest);
    NamedKeys(name, desc, opt + rest);
    NamedConverted(name, desc, opt + rest);
    Builder.ConvertedAppend(opt, rest);
  }

  lemma {:induction false} NamedKeys(name: Value, desc: Value, tail: seq<Member>)
    requires PlainKeys(tail) && DistinctKeys(tail)
    requires forall i :: 0 <= i < |tail| ==> tail[i].key != "name" && tail[i].key != "desc"
    ensures var nd := [Member("name", name), Member("desc", desc)];
            PlainKeys(nd + tail) && DistinctKeys(nd + tail)
  {
    var nd := [Member("name", name), Member("desc", desc)];
    DistinctAppend(nd, tail);
    assert forall i :: 0 <= i < |tail| ==> (nd + tail)[i + 2] == tail[i];
  }

  lemma {:induction false} NamedConverted(name: Value, desc: Value, tail: seq<Member>)
    requires Builder.Safe(Obj([Member("name", name), Member("desc", desc)] + tail))
    ensures Builder.Safe(name) && Builder.Safe(desc) && Builder.Safe(Obj(tail))
    ensures Builder.Converted(Obj([Member("name", name), Member("desc", desc)] + tail))
            == [Member("name", Builder.Convert(name)), Member("desc", Builder.Convert(desc))] + Builder.Converted(Obj(tail))
  {
    var nd := [Member("name", name), Member("desc", desc)];
    Builder.ConvertedAppend(nd, tail);
    assert Builder.Safe(nd[0].value) && Builder.Safe(nd[1].value);
  }


  lemma {:induction false} WaypointKeys(ele: Option<Value>, link: Option<Value>)
    ensures var tail := Optional("ele", ele) + LinkMember(link);
            && PlainKeys(tail) && DistinctKeys(tail)
            && forall i :: 0 <= i < |tail| ==> tail[i].key != "name" && tail[i].key != "desc"
  {
  }

  function WaypointObject(w: Waypoint): Value
    requires Builder.Safe(WaypointTree(w))
  {
    SafeWaypoint(w);
    Obj([LatLonBagMember(w.lat, w.lon)] + WaypointChildren(w))
  }

  /** A builder waypoint's members after the bag: name, desc, ele?, link?. */
  function WaypointChildren(w: Waypoint): seq<Member>
    requires SafeWaypointParts(w)
  {
    [Member("name", Builder.Convert(w.name)), Member("desc", Builder.Convert(w.desc))]
    + BuiltOptional("ele", w.ele) + BuiltLinkMember(w.link)
  }

  /** The values of a waypoint the builder converts are safe. */
  predicate SafeWaypointParts(w: Waypoint) {
    && Builder.Safe(w.lat) && Builder.Safe(w.lon) && Builder.Safe(w.name) && Builder.Safe(w.desc)
    && (w.ele.Some? ==> Builder.Safe(w.ele.value))
    && (w.link.Some? ==> Builder.Safe(w.link.value))
  }

  lemma {:induction false} SafeWaypoint(w: Waypoint)
    requires Builder.Safe(WaypointTree(w))
    ensures SafeWaypointParts(w)
  {
    var ms := WaypointTree(w).members;
    assert Builder.Safe(ms[0].value) && Builder.Safe(ms[1].value) && Builder.Safe(ms[2].value) && Builder.Safe(ms[3].value);
    var opt := Optional("ele", w.ele);
    if w.ele.Some? {
      assert ms[4].value == w.ele.value;
    }
    if w.link.Some? {
      assert ms[|ms| - 1].value == LinkTree(w.link.value);
      assert Builder.Safe(LinkTree(w.link.value));
      BuiltLink(w.link.value);
    }
  }

  /** A waypoint becomes `{ $: { lat, lon }, name, desc, ele?, link? }`. */
  lemma {:induction false} BuiltWaypoint(w: Waypoint)
    requires Builder.Safe(WaypointTree(w))
    ensures Builder.Build(WaypointTree(w)) == WaypointObject(w)
  {
    SafeWaypoint(w);
    WaypointParts(w);
    BuiltLatLon(w.lat, w.lon, WaypointPlain(w));
  }

  /** A waypoint's members after `@lat` and `@lon`. */
  function WaypointPlain(w: Waypoint): seq<Member> {
    [Member("name", w.name), Member("desc", w.desc)] + Optional("ele", w.ele) + LinkMember(w.link)
  }

  lemma {:induction false} WaypointParts(w: Waypoint)
    requires Builder.Safe(WaypointTree(w))
    ensures SafeWaypointParts(w)
    ensures var b := WaypointPlain(w);
            && WaypointTree(w) == Obj([Member("@lat", w.lat), Member("@lon", w.lon)] + b)
            && PlainKeys(b) && DistinctKeys(b)
            && Builder.Safe(Obj(b))
            && Builder.Converted(Obj(b)) == WaypointChildren(w)
  {
    SafeWaypoint(w);
    var a := [Member("@lat", w.lat), Member("@lon", w.lon)];
    var b := WaypointPlain(w);
    assert WaypointTree(w).members == a + b;
    Builder.SafeAppend(a, b);
    WaypointKeys(w.ele, w.link);
    NamedPart(w.name, w.desc, Optional("ele", w.ele), LinkMember(w.link));
    ConvertedOptional("ele", w.ele);
    ConvertedLink(w.link);
  }

  /** The values of a track the builder converts are safe. */
  predicate SafeTrackParts(t: Track) {
    && Builder.Safe(t.name) && Builder.Safe(t.desc)
    && (t.link.Some? ==> Builder.Safe(t.link.value))
    && forall i :: 0 <= i < |t.trkseg| ==> Builder.Safe(SegmentTree(t.trkseg[i]))
  }

  lemma {:induction false} SafeTrack(t: Track)
    requires Builder.Safe(TrackTree(t))
    ensures SafeTrackParts(t)
  {
    var ms := TrackTree(t).members;
    assert Builder.Safe(ms[0].value) && Builder.Safe(ms[1].value);
    if t.link.Some? {
      assert ms[2].value == LinkTree(t.link.value);
      BuiltLink(t.link.value);
    }
    assert ms[|ms| - 1].value == SegmentList(t.trkseg);
    assert forall i :: 0 <= i < |t.trkseg| ==> SegmentList(t.trkseg).elems[i] == SegmentTree(t.trkseg[i]);
  }

  function TrackObject(t: Track): Value
    requires Builder.Safe(TrackTree(t))
  {
    SafeTrack(t);
    var ss := t.trkseg;
    Obj([Member("name", Builder.Convert(t.name)), Member("desc", Builder.Convert(t.desc))]
        + BuiltLinkMember(t.link)
        + [Member("trkseg", Arr(seq(|ss|, i requires 0 <= i < |ss| => SegmentObject(ss[i]))))])
  }

  lemma {:induction false} TrackParts(t: Track)
    requires Builder.Safe(TrackTree(t))
    ensures SafeTrackParts(t)
    ensures var ms := TrackTree(t).members;
            && PlainKeys(ms) && DistinctKeys(ms)
            && Builder.Converted(Obj(ms))
               == [Member("name", Builder.Convert(t.name)), Member("desc", Builder.Convert(t.desc))]
                  + BuiltLinkMember(t.link)
                  + [Member("trkseg", Builder.Convert(SegmentList(t.trkseg)))]
  {
    SafeTrack(t);
    var rest := [Member("trkseg", SegmentList(t.trkseg))];
    assert TrackTree(t).members == [Member("name", t.name), Member("desc", t.desc)] + LinkMember(t.link) + rest;
    NamedPart(t.name, t.desc, LinkMember(t.link), rest);
    ConvertedLink(t.link);
    assert Builder.Converted(Obj(rest)) == [Member("trkseg", Builder.Convert(SegmentList(t.trkseg)))];
  }

  /** A track becomes `{ name, desc, link?, trkseg: [...] }`, one builder segment per segment. */
  lemma {:induction false} BuiltTrack(t: Track)
    requires Builder.Safe(TrackTree(t))
    ensures Builder.Build(TrackTree(t)) == TrackObject(t)
  {
    SafeTrack(t);
    var ss := t.trkseg;
    var objs := seq(|ss|, i requires 0 <= i < |ss| => SegmentObject(ss[i]));
    assert Builder.Convert(SegmentList(ss)) == Arr(objs) by {
      forall i | 0 <= i < |ss|
        ensures Builder.Build(SegmentTree(ss[i])) == SegmentObject(ss[i])
      {
        BuiltSegment(ss[i]);
      }
    }
    assert Builder.Build(TrackTree(t)) == Obj(Builder.Converted(TrackTree(t))) by {
      var ms := TrackTree(t).members;
      TrackParts(t);
      Builder.BuildPlain(ms);
    }
    TrackParts(t);
  }

  /* ---------------------------------------------------------------------
     The root object
     --------------------------------------------------------------------- */

  /** The fixed attributes of the root, `@` removed, in the literal's order. */
  const RootAttributes := [Member("xmlns", Str(GpxNamespace)),
                           Member("xmlns:xsi", Str(XsiNamespace)),
                           Member("xsi:schemaLocation", Str(SchemaLocation)),
                           Member("version", Str(GpxVersion))]

  /** The fixed attributes of the root as the `gpx` literal spells them. */
  function RootLiteral(): seq<Member> {
    [Member("@xmlns", Str(GpxNamespace)),
     Member("@xmlns:xsi", Str(XsiNamespace)),
     Member("@xsi:schemaLocation", Str(SchemaLocation)),
     Member("@version", Str(GpxVersion))]
  }

  /** The plain members of the root. */
  function RootChildren(d: Document): seq<Member> {
    [Member("metadata", d.metadata), Member("wpt", WaypointList(d.wpt)), Member("trk", TrackList(d.trk))]
  }

  /** The values of a document the builder converts are safe. */
  predicate SafeDocumentParts(d: Document) {
    && Builder.Safe(d.metadata)
    && (d.creator.Some? ==> Builder.Safe(d.creator.value))
    && (forall i :: 0 <= i < |d.wpt| ==> Builder.Safe(WaypointTree(d.wpt[i])))
    && (forall i :: 0 <= i < |d.trk| ==> Builder.Safe(TrackTree(d.trk[i])))
  }

  lemma {:induction false} SafeDocument(d: Document)
    requires Builder.Safe(DocumentTree(d))
    ensures SafeDocumentParts(d)
  {
    var ms := DocumentTree(d).members;
    assert ms[4].value == d.metadata && ms[5].value == WaypointList(d.wpt) && ms[6].value == TrackList(d.trk);
    assert forall i :: 0 <= i < |d.wpt| ==> WaypointList(d.wpt).elems[i] == WaypointTree(d.wpt[i]);
    assert forall i :: 0 <= i < |d.trk| ==> TrackList(d.trk).elems[i] == TrackTree(d.trk[i]);
    if d.creator.Some? {
      assert ms[7].value == d.creator.value;
    }
  }

  function DocumentObject(d: Document): Value
    requires Builder.Safe(DocumentTree(d))
  {
    SafeDocument(d);
    var ws, ts := d.wpt, d.trk;
    Obj([Member("$", Obj(RootAttributes + BuiltOptional("creator", d.creator))),
         Member("metadata", Builder.Convert(d.metadata)),
         Member("wpt", Arr(seq(|ws|, i requires 0 <= i < |ws| => WaypointObject(ws[i])))),
         Member("trk", Arr(seq(|ts|, i requires 0 <= i < |ts| => TrackObject(ts[i]))))])
  }

  lemma {:induction false} RootLiteralBag()
    ensures Builder.Safe(Obj(RootLiteral()))
    ensures Builder.Attributes(Builder.Converted(Obj(RootLiteral()))) == RootAttributes
  {
    FixedBag(Str(GpxNamespace), Str(XsiNamespace), Str(SchemaLocation), Str(GpxVersion));
  }

  /** The root literal's four attributes, whatever scalar values they hold. */
  lemma {:induction false} FixedBag(v1: Value, v2: Value, v3: Value, v4: Value)
    requires !IsObjectType(v1) && !IsObjectType(v2) && !IsObjectType(v3) && !IsObjectType(v4)
    ensures var a := [Member("@xmlns", v1), Member("@xmlns:xsi", v2), Member("@xsi:schemaLocation", v3), Member("@version", v4)];
            && Builder.Safe(Obj(a))
            && Builder.Attributes(Builder.Converted(Obj(a)))
               == [Member("xmlns", v1), Member("xmlns:xsi", v2), Member("xsi:schemaLocation", v3), Member("version", v4)]
  {
    var a := [Member("@xmlns", v1), Member("@xmlns:xsi", v2), Member("@xsi:schemaLocation", v3), Member("@version", v4)];
    var e := [Member("xmlns", v1), Member("xmlns:xsi", v2), Member("xsi:schemaLocation", v3), Member("version", v4)];
    Builder.ConvertedScalars(a);
    Builder.AttributesAll(a);
    var r := Builder.Attributes(a);
    RootKeysSliced();
    assert r[0] == e[0] && r[1] == e[1] && r[2] == e[2] && r[3] == e[3];
  }

  lemma {:induction false} RootKeysSliced()
    ensures "@xmlns"[1..] == "xmlns" && "@xmlns:xsi"[1..] == "xmlns:xsi"
    ensures "@xsi:schemaLocation"[1..] == "xsi:schemaLocation" && "@version"[1..] == "version"
  {
  }

  lemma {:induction false} CreatorBag(c: Option<Value>)
    requires Builder.Safe(Obj(Optional("@creator", c)))
    ensures c.Some? ==> Builder.Safe(c.value)
    ensures Builder.Attributes(Builder.Converted(Obj(Optional("@creator", c)))) == BuiltOptional("creator", c)
  {
    ConvertedOptional("@creator", c);
    if c.Some? {
      var m := Member("@creator", Builder.Convert(c.value));
      Builder.PlainSnoc([], m);
      assert [] + [m] == [m];
    }
  }

  lemma {:induction false} RootKeys(d: Document)
    ensures var ms := RootLiteral() + RootChildren(d) + Optional("@creator", d.creator);
            DistinctKeys(ms) && Builder.NoBagKey(ms)
  {
  }

  lemma {:induction false} RootParts(d: Document)
    requires Builder.Safe(DocumentTree(d))
    ensures SafeDocumentParts(d)
    ensures Builder.Build(DocumentTree(d))
            == Obj([Member("$", Obj(RootAttributes + BuiltOptional("creator", d.creator)))]
                   + Builder.Converted(Obj(RootChildren(d))))
  {
    SafeDocument(d);
    var a, b, c := RootLiteral(), RootChildren(d), Optional("@creator", d.creator);
    assert DocumentTree(d).members == a + b + c;
    RootKeys(d);
    Builder.BuildLayout(a, b, c);
    RootLiteralBag();
    CreatorBag(d.creator);
  }

  /**
    The root becomes `{ $: { xmlns, xmlns:xsi, xsi:schemaLocation, version, creator? },
    metadata, wpt: [...], trk: [...] }`: the creator joins the other attributes in
    the bag although it was assigned after the plain members.
   */
  lemma {:induction false} BuiltDocument(d: Document)
    requires Builder.Safe(DocumentTree(d))
    ensures Builder.Build(DocumentTree(d)) == DocumentObject(d)
  {
    RootParts(d);
    WaypointsBuilt(d.wpt);
    TracksBuilt(d.trk);
  }

  lemma {:induction false} WaypointsBuilt(ws: seq<Waypoint>)
    requires forall i :: 0 <= i < |ws| ==> Builder.Safe(WaypointTree(ws[i]))
    ensures Builder.Safe(WaypointList(ws))
    ensures Builder.Convert(WaypointList(ws)) == Arr(seq(|ws|, i requires 0 <= i < |ws| => WaypointObject(ws[i])))
  {
    forall i | 0 <= i < |ws|
      ensures Builder.Build(WaypointTree(ws[i])) == WaypointObject(ws[i])
    {
      BuiltWaypoint(ws[i]);
    }
  }

  lemma {:induction false} TracksBuilt(ts: seq<Track>)
    requires forall i :: 0 <= i < |ts| ==> Builder.Safe(TrackTree(ts[i]))
    ensures Builder.Safe(TrackList(ts))
    ensures Builder.Convert(TrackList(ts)) == Arr(seq(|ts|, i requires 0 <= i < |ts| => TrackObject(ts[i])))
  {
    forall i | 0 <= i < |ts|
      ensures Builder.Build(TrackTree(ts[i])) == TrackObject(ts[i])
    {
      BuiltTrack(ts[i]);
    }
  }
}
